=== FILE: README.md ===
# StreamDock Lightroom controller: the plugin process

This project models the plugin process of the StreamDock Lightroom
controller. The process turns the control surface's events (key presses,
knob presses, knob rotations, property-inspector messages) into command
literals. It keeps them in a FIFO queue and serves them to Lightroom over a
small loopback HTTP protocol.

The model covers:

- `LuaLiteral`: the wire format `{ type = '…', target = '…'[, value = …] }`
  of `toLuaTableLiteral`. A parser for it serves as the inverse: for
  quote-free names the round trip holds, and two concrete commands show why
  it fails without escaping.
- `QueueServer`: the queue and the routes that touch it, in class `Server`.
  - `/poll` shifts the head off the queue.
  - `/queueLength` reports the length as a decimal numeral (module `Decimal`).
  - `/enqueue` appends one command, or `trunc(|steps|)` step deltas.
- `InputNormalizer`: `extractTicks`, with its nine candidates in priority
  order and the `isClockwise` and `direction` fallbacks; `defaultStepSize`;
  and the sensitivity `SENS`.
- `Settings`: per-context settings records and the getters that read them
  with `||` fallbacks.
- `PluginActions`: the `Actions` class, whose `data` maps each context to
  its settings, and the static fields shared across its instances.
- `ActionHandlers`: the commands that the control, the four knobs and the
  four buttons send for each event.
- `Events`: the `EventEmitter` registry.
- `Plugin`: the dispatch key (the last segment of the action UUID), the
  nine registrations, and the routing of one runtime message.

The stateful operations are class methods, and the two scans
(`ExtractTicks`, `CommandFor`) are module-level methods; each is proved
against a function: `Server.Handle` against `PlanInjection`/`InjectedCommands`,
`ExtractTicks` against `TicksOf`, `CommandFor` against `EventCommands`, and
`Plugins.Dispatch` against `EventCommands` and `DataAfter`. The lemmas state
their properties about those functions.

Choices made by the model:

- JavaScript numbers are `JsNumber`: a finite `real`, or a non-finite
  marker for NaN and ±Infinity.
- `Number(string)` is the parameter `parse` and `String(number)` is the
  parameter `render`, because the model fixes neither IEEE rounding nor
  the decimal rendering of reals.
- Settings values are strings, and a missing key reads as `""`, which is
  falsy like `undefined`.

Two behaviours of the code are kept as written:

- `/enqueue?type=invoke&value=1` queues an invoke that carries a value, so
  the command invariant of the live path (invokes carry no value, deltas a
  non-zero one; `WellFormed`) does not hold for the diagnostic route. See
  `InvokeMayCarryValue`.
- An object payload with no usable candidate does not always give 0 ticks.
  The `isClockwise` and `direction` fallbacks come first. See
  `FallbackIsOneStep` and `NoTicksIff`.

## Model

| member | source | states |
|---|---|---|
| JsValues.ToNumber | com.streamdock.lightroom.enhanced.sdPlugin/plugin/index.js:52 | `Number(v)`: undefined and objects give NaN, null gives 0, booleans give 0 or 1, numbers pass through, strings go through `Number(string)` |
| JsValues.Lower | com.streamdock.lightroom.enhanced.sdPlugin/plugin/index.js:58-59 | `toLowerCase` keeps the length, maps each character through the ASCII lower-casing and leaves no upper-case ASCII letter |
| JsValues.ContainsAt | com.streamdock.lightroom.enhanced.sdPlugin/plugin/index.js:58-59 | `includes(sub)` holds whenever `sub` occurs at some index |
| JsValues.ContainsWitness | com.streamdock.lightroom.enhanced.sdPlugin/plugin/index.js:58-59 | conversely, `includes(sub)` yields an index where `sub` occurs |
| Settings.SettingsOf | com.streamdock.lightroom.enhanced.sdPlugin/plugin/utils/plugin.js:210-216 | a payload's settings are exactly its string-valued fields; a non-object gives no settings |
| Settings.Overlay | com.streamdock.lightroom.enhanced.sdPlugin/plugin/utils/plugin.js:211 | `Object.assign({...base}, over)` has the keys of both, the value from `over` where it has one, from `base` elsewhere |
| Settings.Or | com.streamdock.lightroom.enhanced.sdPlugin/plugin/index.js:159 | `a \|\| b` is truthy iff either is, and is `a` when `a` is truthy, else `b` |
| Settings.ContextSettings | com.streamdock.lightroom.enhanced.sdPlugin/plugin/index.js:153-155 | the context's record, or `{}` when the context has none |
| Settings.TargetOf | com.streamdock.lightroom.enhanced.sdPlugin/plugin/index.js:157-160 | `target`, falling back to `paramId`; empty iff both are |
| Settings.InvokeActionOf | com.streamdock.lightroom.enhanced.sdPlugin/plugin/index.js:162-165 | `action`, falling back to `invokeAction`; empty iff both are |
| LuaLiteral.Literal | com.streamdock.lightroom.enhanced.sdPlugin/plugin/index.js:15-20 | the exact text for a command with a value and for one without |
| LuaLiteral.Literals | com.streamdock.lightroom.enhanced.sdPlugin/plugin/index.js:22-24 | the literals of a command sequence, one per command, in order |
| LuaLiteral.LiteralRoundTrip | com.streamdock.lightroom.enhanced.sdPlugin/plugin/index.js:15-20 | for quote-free type and target, reading the literal back gives the type, the target, and the rendered value exactly when there is one |
| LuaLiteral.LiteralInjective | com.streamdock.lightroom.enhanced.sdPlugin/plugin/index.js:15-20 | quote-free commands with equal literals agree on type, target, presence of a value and its rendering |
| LuaLiteral.SeparatorShifts | com.streamdock.lightroom.enhanced.sdPlugin/plugin/index.js:16 | without escaping, the separator inside a target and the same separator after the type give the same literal |
| LuaLiteral.UnescapedQuotesCollide | com.streamdock.lightroom.enhanced.sdPlugin/plugin/index.js:16 | two different commands with quotes in their names share one literal, so the format is not injective in general |
| LuaLiteral.ExposureDeltaLiteral | com.streamdock.lightroom.enhanced.sdPlugin/plugin/index.js:15-20 | a 0.1 delta on Exposure2012 is `{ type = 'delta', target = 'Exposure2012', value = 0.1 }` |
| LuaLiteral.InvokeLiteral | com.streamdock.lightroom.enhanced.sdPlugin/plugin/index.js:17 | an invoke has no value field |
| LuaLiteral.LiteralNonEmpty | com.streamdock.lightroom.enhanced.sdPlugin/plugin/index.js:15-20 | every literal starts with `{ type = '`, so none is the empty string that `/poll` would not serve |
| Decimal.NatToDecimal | com.streamdock.lightroom.enhanced.sdPlugin/plugin/index.js:92 | `String(queue.length)` is a non-empty string of digits that begins with `0` only for 0 |
| Decimal.DecimalRoundTrip | com.streamdock.lightroom.enhanced.sdPlugin/plugin/index.js:92 | reading the numeral back gives the length |
| Decimal.DecimalInjective | com.streamdock.lightroom.enhanced.sdPlugin/plugin/index.js:92 | different lengths are reported as different texts |
| InputNormalizer.Sensitivity | com.streamdock.lightroom.enhanced.sdPlugin/plugin/index.js:12 | SENS is the override when it is a non-zero number, else 0.03; never 0 |
| InputNormalizer.DefaultStepSize | com.streamdock.lightroom.enhanced.sdPlugin/plugin/index.js:29-35 | 0.01 exactly for Temperature, Temp and Tint, 0.1 for every other target |
| InputNormalizer.Candidates | com.streamdock.lightroom.enhanced.sdPlugin/plugin/index.js:40-50 | nine candidates; all `undefined` for a non-object payload, the last three `undefined` when `data` is not an object |
| InputNormalizer.DirectionTicks | com.streamdock.lightroom.enhanced.sdPlugin/plugin/index.js:55-61 | the fallback is -1, 0 or 1; a boolean `isClockwise` decides it alone (+1 iff true); otherwise a string `direction` gives +1 iff its lower-cased text contains "clockwise", and -1 iff it contains "counter" but not "clockwise"; a non-zero result needs `isClockwise` or `direction` |
| InputNormalizer.TicksOf | com.streamdock.lightroom.enhanced.sdPlugin/plugin/index.js:38-62 | non-zero only for an object payload, and always non-zero when a candidate is usable |
| InputNormalizer.FirstUsable | com.streamdock.lightroom.enhanced.sdPlugin/plugin/index.js:51-54 | the index of the first finite non-zero candidate: all earlier ones are unusable |
| InputNormalizer.ExtractTicks | com.streamdock.lightroom.enhanced.sdPlugin/plugin/index.js:38-62 | the scan loop with early returns computes `TicksOf` |
| InputNormalizer.NonObjectHasNoTicks | com.streamdock.lightroom.enhanced.sdPlugin/plugin/index.js:39 | a payload that is not an object gives 0 |
| InputNormalizer.FirstCandidateWins | com.streamdock.lightroom.enhanced.sdPlugin/plugin/index.js:40-54 | when candidate i is the first usable one, the result is its number, which is non-zero |
| InputNormalizer.FallbackIsOneStep | com.streamdock.lightroom.enhanced.sdPlugin/plugin/index.js:55-61 | with no usable candidate the result is the direction fallback, one of -1, 0, 1 |
| InputNormalizer.NoTicksIff | com.streamdock.lightroom.enhanced.sdPlugin/plugin/index.js:38-62 | the result is 0 iff the payload is not an object, or no candidate is usable and neither fallback applies |
| InputNormalizer.CounterclockwiseCountsAsClockwise | com.streamdock.lightroom.enhanced.sdPlugin/plugin/index.js:58 | a direction-only "counterclockwise" gives +1, because it contains "clockwise" |
| InputNormalizer.CounterIsMinusOne | com.streamdock.lightroom.enhanced.sdPlugin/plugin/index.js:59 | a direction-only "counter" gives -1 |
| QueueServer.PollStep | com.streamdock.lightroom.enhanced.sdPlugin/plugin/index.js:67-76 | the shift drops the head of a non-empty queue; the head is served iff it is non-empty, and the served item with the new queue rebuilds the old one |
| QueueServer.DrainInOrder | com.streamdock.lightroom.enhanced.sdPlugin/plugin/index.js:66-77 | n polls of a literal queue serve its items in insertion order, then only empty signals, and leave the unserved suffix |
| QueueServer.EmptyQueueStaysEmpty | com.streamdock.lightroom.enhanced.sdPlugin/plugin/index.js:66-77 | polling an empty queue answers every time with the empty signal and leaves it empty |
| QueueServer.RouteOf | com.streamdock.lightroom.enhanced.sdPlugin/plugin/index.js:64-133 | each route is chosen exactly for its request: `GET /poll`, `POST /ack`, `GET /health`, `GET /queueLength`, and any GET whose URL starts with `/enqueue`; everything else is 404 |
| QueueServer.ParamOr | com.streamdock.lightroom.enhanced.sdPlugin/plugin/index.js:101-102 | a query parameter, or the fallback when it is missing or empty |
| QueueServer.FiniteParam | com.streamdock.lightroom.enhanced.sdPlugin/plugin/index.js:106-107 | a number exactly when the parameter is present, non-empty and parses to a finite number, with that number |
| QueueServer.TruncAbs | com.streamdock.lightroom.enhanced.sdPlugin/plugin/index.js:108 | `Math.trunc(Math.abs(x))` is the natural number n with n ≤ \|x\| < n + 1 |
| QueueServer.PlanInjection | com.streamdock.lightroom.enhanced.sdPlugin/plugin/index.js:101-124 | bulk iff type is delta and steps is finite, then count `trunc(\|steps\|)` and the signed default step; otherwise one command with the defaulted type and target and the value only when it is finite |
| QueueServer.BulkInjection | com.streamdock.lightroom.enhanced.sdPlugin/plugin/index.js:106-113 | a bulk injection appends exactly `trunc(\|steps\|)` deltas, each the target's default step signed like steps |
| QueueServer.SmallStepsAppendNothing | com.streamdock.lightroom.enhanced.sdPlugin/plugin/index.js:108-111 | steps strictly between -1 and 1, in particular 0, append nothing |
| QueueServer.SingleInjection | com.streamdock.lightroom.enhanced.sdPlugin/plugin/index.js:114-124 | any other request appends one command with the defaulted type and target, carrying a value iff it parses finite |
| QueueServer.TempStepsExample | com.streamdock.lightroom.enhanced.sdPlugin/plugin/index.js:29-35 | `type=delta&target=Temp&steps=-3` appends three deltas of -0.01 on Temp |
| QueueServer.ResetExample | com.streamdock.lightroom.enhanced.sdPlugin/plugin/index.js:114-122 | `type=invoke&target=Reset` appends one invoke of Reset with no value |
| QueueServer.BareEnqueueToggles | com.streamdock.lightroom.enhanced.sdPlugin/plugin/index.js:101-102 | a bare `/enqueue` appends one invoke of ToggleBeforeAfter |
| QueueServer.InvokeMayCarryValue | com.streamdock.lightroom.enhanced.sdPlugin/plugin/index.js:117-121 | an invoke request with a finite `value` queues an invoke carrying that value |
| QueueServer.Server.constructor | com.streamdock.lightroom.enhanced.sdPlugin/plugin/index.js:12-13 | the queue starts empty and SENS is `Sensitivity` of the environment override, so the server invariant includes SENS ≠ 0 |
| QueueServer.Server.Enqueue | com.streamdock.lightroom.enhanced.sdPlugin/plugin/index.js:22-26 | the queue becomes the old queue plus the command's literal at the end; the no-empty-item invariant is kept |
| QueueServer.Server.Poll | com.streamdock.lightroom.enhanced.sdPlugin/plugin/index.js:66-77 | a non-empty queue yields its head and keeps its tail; an empty one yields the empty signal and stays empty |
| QueueServer.Server.Handle | com.streamdock.lightroom.enhanced.sdPlugin/plugin/index.js:64-133 | per route, the response and the new queue: poll as `PollStep`; ack and health 200 "ok"; queueLength the numeral of the length; enqueue the injected literals appended in order, or 400 for a bad URL; otherwise 404; only `/poll` and `/enqueue` change the queue |
| PluginActions.Globals.constructor | com.streamdock.lightroom.enhanced.sdPlugin/plugin/utils/plugin.js:198-200 | the static tables start empty and the current action and context unset |
| PluginActions.Actions.constructor | com.streamdock.lightroom.enhanced.sdPlugin/plugin/utils/plugin.js:192-196 | `data` and `default` start empty and are replaced by the argument's fields when it supplies them |
| PluginActions.Actions.OnWillAppear | com.streamdock.lightroom.enhanced.sdPlugin/plugin/utils/plugin.js:207-213 | `actions[context]` records the action and the global context is set; then the context's entry becomes the defaults overlaid by the incoming settings, except that a missing or null payload throws and leaves the table as it was; nothing else changes |
| PluginActions.Actions.OnDidReceiveSettings | com.streamdock.lightroom.enhanced.sdPlugin/plugin/utils/plugin.js:215-218 | the context's entry is replaced wholesale by the incoming settings; a missing or null payload throws and leaves the table as it was |
| PluginActions.Actions.OnWillDisappear | com.streamdock.lightroom.enhanced.sdPlugin/plugin/utils/plugin.js:220-223 | exactly the context's key is removed; every other entry is as it was |
| PluginActions.Actions.OnPropertyInspectorDidAppear | com.streamdock.lightroom.enhanced.sdPlugin/plugin/utils/plugin.js:201-205 | the current action and context are recorded; the other shared fields are unchanged |
| PluginActions.DataAfter | com.streamdock.lightroom.enhanced.sdPlugin/plugin/utils/plugin.js:207-223 | after any event, contexts other than the message's keep their entries; per event, the message's context is created, replaced, removed, or, on the control's `sendToPlugin`, replaced by its current settings overlaid with the payload (index.js:182-188); every other event, and willAppear and didReceiveSettings without a payload, leave the table unchanged |
| PluginActions.AppearThenDisappear | com.streamdock.lightroom.enhanced.sdPlugin/plugin/utils/plugin.js:207-223 | a new context that appears and then disappears leaves the table as it was |
| ActionHandlers.KeyUpCommand | com.streamdock.lightroom.enhanced.sdPlugin/plugin/index.js:190-195 | the control's key press invokes the first set of action, invokeAction, target, paramId, and nothing iff none is set |
| ActionHandlers.DialDownCommand | com.streamdock.lightroom.enhanced.sdPlugin/plugin/index.js:197-200 | the knob press sends a command iff action or invokeAction is set, and it invokes that |
| ActionHandlers.RotationDelta | com.streamdock.lightroom.enhanced.sdPlugin/plugin/index.js:208-210 | zero ticks send nothing; otherwise one delta of `ticks * SENS` on the target |
| ActionHandlers.ControlRotateCommand | com.streamdock.lightroom.enhanced.sdPlugin/plugin/index.js:202-211 | the control's rotation sends nothing iff no target/paramId is set or the ticks are 0, else one delta of `ticks * SENS` on that target |
| ActionHandlers.EventCommands | com.streamdock.lightroom.enhanced.sdPlugin/plugin/index.js:168-277 | at most one command per event; lifecycle and inspector events send none; a button sends its one invoke on keyUp only |
| ActionHandlers.LiveCommandsWellFormed | com.streamdock.lightroom.enhanced.sdPlugin/plugin/index.js:190-277 | with non-zero SENS, the event handlers only ever send invokes without a value and deltas with a non-zero value |
| ActionHandlers.KnobRotates | com.streamdock.lightroom.enhanced.sdPlugin/plugin/index.js:215-256 | a knob sends nothing but on dialRotate, and then exactly the rotation delta of `ticks * SENS` on its fixed parameter |
| ActionHandlers.RotationDeltaNonZero | com.streamdock.lightroom.enhanced.sdPlugin/plugin/index.js:208-210 | with non-zero SENS, a rotation delta is never 0 |
| ActionHandlers.NoTicksNoCommand | com.streamdock.lightroom.enhanced.sdPlugin/plugin/index.js:208 | a rotation with 0 ticks sends nothing, whatever the action |
| ActionHandlers.UnconfiguredControlIsSilent | com.streamdock.lightroom.enhanced.sdPlugin/plugin/index.js:153-155 | a control with no settings for the context sends nothing for any event |
| Events.Without | com.streamdock.lightroom.enhanced.sdPlugin/plugin/utils/plugin.js:243 | the filtered list lacks the listener, keeps every other listener, and adds nothing |
| Events.WithoutAppend | com.streamdock.lightroom.enhanced.sdPlugin/plugin/utils/plugin.js:243 | filtering works piecewise on a concatenation, so the remaining listeners keep their relative order |
| Events.WithoutAbsent | com.streamdock.lightroom.enhanced.sdPlugin/plugin/utils/plugin.js:240-244 | removing a listener that is not subscribed leaves the list unchanged |
| Events.WithoutIdempotent | com.streamdock.lightroom.enhanced.sdPlugin/plugin/utils/plugin.js:240-244 | unsubscribing twice is the same as unsubscribing once |
| Events.WithoutCounts | com.streamdock.lightroom.enhanced.sdPlugin/plugin/utils/plugin.js:243 | every occurrence of the removed listener goes, and each other listener keeps its multiplicity |
| Events.EventEmitter.constructor | com.streamdock.lightroom.enhanced.sdPlugin/plugin/utils/plugin.js:227-229 | no event has listeners |
| Events.EventEmitter.Subscribe | com.streamdock.lightroom.enhanced.sdPlugin/plugin/utils/plugin.js:232-237 | the listener is appended at the end of the event's list, created empty if needed; other events are untouched |
| Events.EventEmitter.Unsubscribe | com.streamdock.lightroom.enhanced.sdPlugin/plugin/utils/plugin.js:240-244 | no-op for an unknown event; otherwise the list becomes its filtered version, without the listener |
| Events.EventEmitter.Emit | com.streamdock.lightroom.enhanced.sdPlugin/plugin/utils/plugin.js:247-250 | one call per listener of the event, in subscription order, each with the data; none for an unknown event |
| Plugin.SegmentStart | com.streamdock.lightroom.enhanced.sdPlugin/plugin/utils/plugin.js:63 | the start of the last segment: no dot at or after it, and a dot just before it unless it is 0 |
| Plugin.LastSegment | com.streamdock.lightroom.enhanced.sdPlugin/plugin/utils/plugin.js:63 | `split('.').pop()` is a dot-free suffix preceded by a dot unless it is the whole string |
| Plugin.ActionKey | com.streamdock.lightroom.enhanced.sdPlugin/plugin/utils/plugin.js:63 | a key exists iff the message has an action; it is a dot-free suffix of the UUID |
| Plugin.NoDotIsWholeKey | com.streamdock.lightroom.enhanced.sdPlugin/plugin/utils/plugin.js:63 | a UUID without a dot is its own key |
| Plugin.KeyAfterLastDot | com.streamdock.lightroom.enhanced.sdPlugin/plugin/utils/plugin.js:63 | the key of `prefix.suffix` with a dot-free suffix is the suffix |
| Plugin.ControlUuidKey | com.streamdock.lightroom.enhanced.sdPlugin/plugin/index.js:167 | `com.streamdock.lightroom.enhanced.control` dispatches to `control` |
| Plugin.NewKnobs | com.streamdock.lightroom.enhanced.sdPlugin/plugin/index.js:214-256 | four fresh knobs bound to Exposure2012, Contrast2012, Highlights2012 and Shadows2012, with empty defaults and no contexts |
| Plugin.NewButtons | com.streamdock.lightroom.enhanced.sdPlugin/plugin/index.js:258-277 | four fresh buttons invoking ToggleBeforeAfter, Reset, CopySettings and PasteSettings |
| Plugin.Plugins.Hit | com.streamdock.lightroom.enhanced.sdPlugin/plugin/utils/plugin.js:63-64 | a message reaches an action object iff its key names one |
| Plugin.Plugins.constructor | com.streamdock.lightroom.enhanced.sdPlugin/plugin/index.js:168-277 | the nine registrations under their keys, each fresh and empty, the control with default target Exposure |
| Plugin.Plugins.Dispatch | com.streamdock.lightroom.enhanced.sdPlugin/plugin/utils/plugin.js:62-68 | one message: the queue grows by the literals of the routed handler's commands; only the routed object's table changes, as `DataAfter`; the shared fields follow the event; a global-settings event with a payload replaces the global settings (without one, reading `payload.settings` throws and they stay); every command sent is well-formed, since SENS ≠ 0 |
| Plugin.Plugins.Route | com.streamdock.lightroom.enhanced.sdPlugin/plugin/utils/plugin.js:63-64 | the same effects for the handler call alone, with the global settings unchanged |
| Plugin.Plugins.HandleEvent | com.streamdock.lightroom.enhanced.sdPlugin/plugin/utils/plugin.js:201-223 | `this[action][event](data)` on one object: lifecycle methods as `DataAfter`, press and rotation events enqueue `EventCommands`, `sendToPlugin` on the control overlays the payload |
| Plugin.Plugins.SendCommand | com.streamdock.lightroom.enhanced.sdPlugin/plugin/index.js:190-211 | a press or rotation appends the literals of `EventCommands` to the queue |
| Plugin.CommandFor | com.streamdock.lightroom.enhanced.sdPlugin/plugin/index.js:190-277 | the handlers as they run, with settings lookup and the tick scan, compute `EventCommands` |

## Left out

- HTTP and socket plumbing: the server object, `listen`, response headers, draining the `/ack` body, the WebSocket connection, `argv`, and the process handlers. Each route is modelled by its response kind and its effect on the queue.
- The 500 path of the request handler: nothing in the modelled routes throws once the URL is parsed.
- URL parsing is an input: the query parameters arrive already decoded, and `None` stands for a URL that does not parse.
- Logging and its `try/catch` shells, and the ISO timestamps in the enqueue log line.
- IEEE-754 arithmetic. `Number(string)` and `String(number)` are parameters. `ticks * SENS` and the step sizes are exact reals, with no rounding.
- InputNormalizer.Sensitivity: takes a finite override, so an environment value of `Infinity` (which gives infinite deltas) is not modelled.
- JsValues.Lower: `toLowerCase` is modelled on ASCII letters only.
- Arrays in payloads, and `Number` on them, are not part of the value domain.
- Settings.SettingsOf: keeps only string-valued settings fields. Non-string values (numbers, booleans, objects) are dropped rather than coerced.
- PluginActions.DataAfter, PluginActions.Actions.OnDidReceiveSettings, Plugin.Plugins.Dispatch: a payload that is present but has no `settings` object stores `undefined` in the source and `{}` in the model (in the context's entry, and in the global settings); every reader of an entry (`data[context] || {}`) treats the two alike, and nothing reads the global settings.
- Plugin.Plugins.Dispatch: keys and event names that name other properties of the plugin or action object (`ws`, `data`, `default`, prototype members) are not modelled. For such names the source calls something, or throws.
- Plugin.Plugins.Dispatch: the plugin-level handler `this[event]` is called last. Only `didReceiveGlobalSettings` defines one, and it only logs, so it has no effect to model.
- The one-time `getGlobalSettings` request on the first message, and all outbound senders (`setTitle` in the control's `_willAppear`, `setSettings` in `sendToPlugin`, `setImage`, `setState`, `showAlert`, `showOk`, `sendToPropertyInspector`, `openUrl`, `setGlobalSettings`). These are socket writes with no effect on the modelled state.
- The `Plugins` singleton constructor and the language detection from `argv`.
- Events.EventEmitter.Subscribe: `events` is a plain object, so an event name that is an `Object.prototype` member (`toString`, `constructor`, `valueOf`, `__proto__`, …) finds the inherited value, skips the list creation, and the `push` throws; the model treats such names like any other and appends.
- Events.EventEmitter.Unsubscribe: for an `Object.prototype` member name the `filter` call throws; the model treats it as an unknown event and changes nothing.
- Events.EventEmitter.Emit: for an `Object.prototype` member name the `forEach` call throws; the model records no calls.
- Events.EventEmitter.Emit: listeners are recorded as calls rather than run, so a listener that subscribes or unsubscribes during `emit` is not modelled.
- The property-inspector scripts (browser UI code) and `autofile.js`, a build script: neither is part of this model.

=== FILE: action_handlers.dfy ===
/**
  What each action handler sends downstream: zero or one command per
  event, decided from the control's settings and the event payload.
*/
module ActionHandlers {
  import opened Wrappers
  import opened JsValues
  import opened LuaLiteral
  import opened Settings
  import opened InputNormalizer
  import opened PluginActions

  /** control.keyUp: invoke the first of `action`, `invokeAction`, `target`, `paramId` that is set. */
  function KeyUpCommand(s: Settings): (r: Option<Command>)
    ensures r.None? <==>
      Field(s, "action") == "" && Field(s, "invokeAction") == ""
      && Field(s, "target") == "" && Field(s, "paramId") == ""
    ensures Field(s, "action") != "" ==> r == Some(Invoke(Field(s, "action")))
    ensures Field(s, "action") == "" && Field(s, "invokeAction") != "" ==>
      r == Some(Invoke(Field(s, "invokeAction")))
    ensures Field(s, "action") == "" && Field(s, "invokeAction") == "" && Field(s, "target") != "" ==>
      r == Some(Invoke(Field(s, "target")))
    ensures Field(s, "action") == "" && Field(s, "invokeAction") == "" && Field(s, "target") == ""
            && Field(s, "paramId") != "" ==>
      r == Some(Invoke(Field(s, "paramId")))
  {
    var id := Or(InvokeActionOf(s), TargetOf(s));
    if id == "" then None else Some(Invoke(id))
  }

  /** control.dialDown: invoke `action` or `invokeAction` only; the rotate target is never used. */
  function DialDownCommand(s: Settings): (r: Option<Command>)
    ensures r.Some? <==> Field(s, "action") != "" || Field(s, "invokeAction") != ""
    ensures r.Some? ==> r.value == Invoke(InvokeActionOf(s))
  {
    var id := InvokeActionOf(s);
    if id == "" then None else Some(Invoke(id))
  }

  /** A rotation of `ticks` steps on `target`: one delta of `ticks * sens`, nothing for zero. */
  function RotationDelta(target: string, ticks: real, sens: real): (r: Option<Command>)
    ensures r.None? <==> ticks == 0.0
    ensures r.Some? ==> r.value == Delta(target, ticks * sens)
  {
    if ticks == 0.0 then None else Some(Delta(target, ticks * sens))
  }

  /** control.dialRotate: the configured `target` (or `paramId`) is required. */
  function ControlRotateCommand(s: Settings, payload: JsValue, sens: real, parse: string -> JsNumber)
    : (r: Option<Command>)
    ensures r.None? <==> TargetOf(s) == "" || TicksOf(payload, parse) == 0.0
    ensures r.Some? ==> r.value == Delta(TargetOf(s), TicksOf(payload, parse) * sens)
  {
    if TargetOf(s) == "" then None else RotationDelta(TargetOf(s), TicksOf(payload, parse), sens)
  }

  /** The commands an instance of `kind` with settings table `data` sends for `msg`. */
  function EventCommands(kind: ActionKind, data: map<string, Settings>, msg: Message,
                         sens: real, parse: string -> JsNumber): (cs: seq<Command>)
    ensures |cs| <= 1
    ensures !(msg.event == KeyUp || msg.event == DialDown || msg.event == DialRotate) ==> cs == []
    ensures kind.Button? ==> cs == if msg.event == KeyUp then [Invoke(kind.invoke)] else []
  {
    var s := ContextSettings(data, msg.context);
    match msg.event
    case KeyUp =>
      (match kind
       case Control => ToSeq(KeyUpCommand(s))
       case Button(id) => [Invoke(id)]
       case Knob(_) => [])
    case DialDown =>
      if kind == Control then ToSeq(DialDownCommand(s)) else []
    case DialRotate =>
      (match kind
       case Control => ToSeq(ControlRotateCommand(s, msg.payload, sens, parse))
       case Knob(param) => ToSeq(RotationDelta(param, TicksOf(msg.payload, parse), sens))
       case Button(_) => [])
    case _ => []
  }

  /** The command invariant of the live path: invokes carry no value, deltas a non-zero one. */
  predicate WellFormed(c: Command) {
    (c.kind == "invoke" && c.value.None?) || (c.kind == "delta" && c.value.Some? && c.value.value != 0.0)
  }

  /** A knob sends only on rotation: one delta of `ticks * SENS` on its fixed parameter. */
  lemma KnobRotates(param: string, data: map<string, Settings>, msg: Message,
                    sens: real, parse: string -> JsNumber)
    ensures msg.event == DialRotate ==>
      EventCommands(Knob(param), data, msg, sens, parse) == ToSeq(RotationDelta(param, TicksOf(msg.payload, parse), sens))
    ensures msg.event != DialRotate ==> EventCommands(Knob(param), data, msg, sens, parse) == []
  {
  }

  /** The live path keeps the command invariant when the sensitivity is non-zero. */
  lemma LiveCommandsWellFormed(kind: ActionKind, data: map<string, Settings>, msg: Message,
                               sens: real, parse: string -> JsNumber)
    requires sens != 0.0
    ensures forall c :: c in EventCommands(kind, data, msg, sens, parse) ==> WellFormed(c)
  {
    if msg.event == DialRotate && !kind.Button? {
      var target := if kind.Knob? then kind.param else TargetOf(ContextSettings(data, msg.context));
      RotationDeltaNonZero(target, TicksOf(msg.payload, parse), sens);
    }
  }

  /** A non-zero sensitivity never turns a rotation into a zero delta. */
  lemma RotationDeltaNonZero(target: string, ticks: real, sens: real)
    requires sens != 0.0
    ensures RotationDelta(target, ticks, sens).Some? ==> RotationDelta(target, ticks, sens).value.value.value != 0.0
  {
    if ticks != 0.0 {
      ProductNonZero(ticks, sens);
    }
  }

  lemma ProductNonZero(x: real, y: real)
    requires x != 0.0 && y != 0.0
    ensures x * y != 0.0
  {
    if x > 0.0 && y > 0.0 {
      assert x * y > 0.0;
    } else if x > 0.0 {
      assert x * -y > 0.0;
    } else if y > 0.0 {
      assert -x * y > 0.0;
    } else {
      assert -x * -y > 0.0;
    }
  }

  /** Zero ticks never reach the queue, whatever the sensitivity. */
  lemma NoTicksNoCommand(kind: ActionKind, data: map<string, Settings>, msg: Message,
                         sens: real, parse: string -> JsNumber)
    requires msg.event == DialRotate && TicksOf(msg.payload, parse) == 0.0
    ensures EventCommands(kind, data, msg, sens, parse) == []
  {
  }

  /** A control without settings for the context rotates nothing and presses nothing. */
  lemma UnconfiguredControlIsSilent(data: map<string, Settings>, msg: Message,
                                    sens: real, parse: string -> JsNumber)
    requires msg.context !in data
    ensures EventCommands(Control, data, msg, sens, parse) == []
  {
  }
}

=== FILE: decimal.dfy ===
/** `String(n)` for the non-negative integers the server reports (the queue length). */
module Decimal {

  predicate IsDigit(c: char) {
    '0' <= c <= '9'
  }

  function Digit(d: nat): (c: char)
    requires d < 10
    ensures IsDigit(c) && (c as int) - ('0' as int) == d
  {
    ('0' as int + d) as char
  }

  /** The decimal numeral of `n`: digits only, no leading zero. */
  function NatToDecimal(n: nat): (s: string)
    ensures |s| >= 1
    ensures forall i :: 0 <= i < |s| ==> IsDigit(s[i])
    ensures s[0] == '0' ==> n == 0
    decreases n
  {
    if n < 10 then [Digit(n)] else NatToDecimal(n / 10) + [Digit(n % 10)]
  }

  /** The value of a string of digits, most significant first. */
  function DecimalValue(s: string): nat
    requires forall i :: 0 <= i < |s| ==> IsDigit(s[i])
    decreases |s|
  {
    if s == [] then 0
    else
      assert IsDigit(s[|s| - 1]);
      var last: nat := (s[|s| - 1] as int) - ('0' as int);
      DecimalValue(s[..|s| - 1]) * 10 + last
  }

  /** Reading the numeral back gives the number: the length the client sees is the length. */
  lemma {:induction false} DecimalRoundTrip(n: nat)
    ensures DecimalValue(NatToDecimal(n)) == n
    decreases n
  {
    var s := NatToDecimal(n);
    if n >= 10 {
      DecimalRoundTrip(n / 10);
      assert s[..|s| - 1] == NatToDecimal(n / 10);
    }
  }

  /** Different lengths are reported as different texts. */
  lemma DecimalInjective(m: nat, n: nat)
    requires NatToDecimal(m) == NatToDecimal(n)
    ensures m == n
  {
    DecimalRoundTrip(m);
    DecimalRoundTrip(n);
  }
}

=== FILE: events.dfy ===
/**
  The event registry: per event name, the listeners in subscription order.
  Listeners are compared by identity, which the type parameter's equality
  stands for; calling one is recorded rather than performed.
*/
module Events {

  /** `listeners.filter(l => l !== x)`. */
  function Without<L(==)>(listeners: seq<L>, x: L): (r: seq<L>)
    ensures x !in r
    ensures forall i :: 0 <= i < |r| ==> r[i] in listeners && r[i] != x
    ensures forall i :: 0 <= i < |listeners| && listeners[i] != x ==> listeners[i] in r
    ensures |r| <= |listeners|
    decreases |listeners|
  {
    if listeners == [] then []
    else if listeners[0] == x then Without(listeners[1..], x)
    else [listeners[0]] + Without(listeners[1..], x)
  }

  /** Filtering works piecewise, so the listeners that stay keep their relative order. */
  lemma {:induction false} WithoutAppend<L>(a: seq<L>, b: seq<L>, x: L)
    ensures Without(a + b, x) == Without(a, x) + Without(b, x)
    decreases |a|
  {
    if a == [] {
      assert a + b == b;
    } else {
      assert (a + b)[1..] == a[1..] + b;
      WithoutAppend(a[1..], b, x);
    }
  }

  /** Removing a listener that is not subscribed changes nothing. */
  lemma {:induction false} WithoutAbsent<L>(listeners: seq<L>, x: L)
    requires x !in listeners
    ensures Without(listeners, x) == listeners
    decreases |listeners|
  {
    if listeners != [] {
      assert x !in listeners[1..];
      WithoutAbsent(listeners[1..], x);
    }
  }

  /** Unsubscribing twice is unsubscribing once. */
  lemma WithoutIdempotent<L>(listeners: seq<L>, x: L)
    ensures Without(Without(listeners, x), x) == Without(listeners, x)
  {
    WithoutAbsent(Without(listeners, x), x);
  }

  /** Every occurrence of the removed listener goes, and each other one stays as often as it was. */
  lemma {:induction false} WithoutCounts<L>(listeners: seq<L>, x: L, y: L)
    ensures multiset(Without(listeners, x))[y] == if y == x then 0 else multiset(listeners)[y]
    decreases |listeners|
  {
    if listeners != [] {
      WithoutCounts(listeners[1..], x, y);
      assert listeners == [listeners[0]] + listeners[1..];
    }
  }

  class EventEmitter<L(==)> {
    var events: map<string, seq<L>>

    constructor()
      ensures events == map[]
    {
      events := map[];
    }

    /** The listeners of `event`, none for an unknown one. */
    function Listeners(event: string): seq<L>
      reads this
    {
      if event in events then events[event] else []
    }

    /** subscribe: append at the end of the event's list, creating the list if needed. */
    method Subscribe(event: string, listener: L)
      modifies this
      ensures events == old(events)[event := old(Listeners(event)) + [listener]]
      ensures forall e :: e != event ==> Listeners(e) == old(Listeners(e))
    {
      if event !in events {
        events := events[event := []];
      }
      events := events[event := events[event] + [listener]];
    }

    /** unsubscribe: drop every occurrence of the listener; an unknown event is left alone. */
    method Unsubscribe(event: string, listener: L)
      modifies this
      ensures event !in old(events) ==> events == old(events)
      ensures event in old(events) ==> events == old(events)[event := Without(old(events)[event], listener)]
      ensures listener !in Listeners(event)
    {
      if event !in events {
        return;
      }
      events := events[event := Without(events[event], listener)];
    }

    /** emit: call the event's listeners with `data`, in subscription order; returns the calls made. */
    method Emit<D>(event: string, data: D) returns (calls: seq<(L, D)>)
      ensures |calls| == |Listeners(event)|
      ensures forall i :: 0 <= i < |calls| ==> calls[i] == (Listeners(event)[i], data)
    {
      calls := [];
      if event !in events {
        return;
      }
      var listeners := events[event];
      for i := 0 to |listeners|
        invariant |calls| == i
        invariant forall j :: 0 <= j < i ==> calls[j] == (listeners[j], data)
      {
        calls := calls + [(listeners[i], data)];
      }
    }
  }
}

=== FILE: input_normalizer.dfy ===
/**
  Turning a raw dial event into a signed tick count, and the two scale
  factors: the per-target step of the diagnostic path and the global
  sensitivity of the live path.
*/
module InputNormalizer {
  import opened Wrappers
  import opened JsValues

  /** The default of the sensitivity (ticks to Lightroom delta). */
  const DefaultSensitivity: real := 0.03

  /**
    `Number(process.env.LR_KNOB_SENSITIVITY) || 0.03`. The override is the
    finite number the variable parses to, `None` when it is unset or NaN.
  */
  function Sensitivity(override: Option<real>): (s: real)
    ensures s != 0.0
    ensures override.Some? && override.value != 0.0 ==> s == override.value
    ensures override.None? || override.value == 0.0 ==> s == DefaultSensitivity
  {
    if override.Some? && override.value != 0.0 then override.value else DefaultSensitivity
  }

  /** defaultStepSize: the delta per step the diagnostic injection sends for `target`. */
  function DefaultStepSize(target: string): (step: real)
    ensures step == 0.01 <==> target == "Temperature" || target == "Temp" || target == "Tint"
    ensures step != 0.01 ==> step == 0.1
    ensures step > 0.0
  {
    if target == "Temperature" || target == "Temp" || target == "Tint" then 0.01 else 0.1
  }

  /** The fields probed for a tick count, in priority order. */
  function Candidates(payload: JsValue): (cs: seq<JsValue>)
    ensures |cs| == 9
    ensures !payload.Obj? ==> forall i :: 0 <= i < |cs| ==> cs[i] == Undefined
    ensures !Get(payload, "data").Obj? ==> cs[6] == cs[7] == cs[8] == Undefined
  {
    var data := Get(payload, "data");
    [ Get(payload, "ticks"), Get(payload, "delta"), Get(payload, "value"),
      Get(payload, "step"), Get(payload, "rotation"), Get(payload, "clicks"),
      Get(data, "ticks"), Get(data, "delta"), Get(data, "value") ]
  }

  /** `Number.isFinite(Number(v)) && Number(v) !== 0`. */
  predicate Usable(v: JsValue, parse: string -> JsNumber) {
    var n := ToNumber(v, parse);
    n.Finite? && n.r != 0.0
  }

  /** The index of the first usable candidate, `|cs|` when there is none. */
  function FirstUsable(cs: seq<JsValue>, parse: string -> JsNumber): (k: nat)
    ensures k <= |cs|
    ensures forall j :: 0 <= j < k ==> !Usable(cs[j], parse)
    ensures k < |cs| ==> Usable(cs[k], parse)
    decreases |cs|
  {
    if cs == [] then 0
    else if Usable(cs[0], parse) then 0
    else 1 + FirstUsable(cs[1..], parse)
  }

  /** The one-step fallbacks: a boolean `isClockwise`, then a string `direction`. */
  function DirectionTicks(payload: JsValue): (t: real)
    ensures t == 0.0 || t == 1.0 || t == -1.0
    ensures Get(payload, "isClockwise").Bool? ==> (t == 1.0 <==> Get(payload, "isClockwise").b) && t != 0.0
    ensures t != 0.0 ==> Get(payload, "isClockwise").Bool? || Get(payload, "direction").Str?
    ensures !Get(payload, "isClockwise").Bool? && Get(payload, "direction").Str? ==>
      var d := Lower(Get(payload, "direction").s);
      && (t == 1.0 <==> Contains(d, "clockwise"))
      && (t == -1.0 <==> !Contains(d, "clockwise") && Contains(d, "counter"))
  {
    match Get(payload, "isClockwise")
    case Bool(cw) => if cw then 1.0 else -1.0
    case _ =>
      match Get(payload, "direction")
      case Str(d) =>
        if Contains(Lower(d), "clockwise") then 1.0
        else if Contains(Lower(d), "counter") then -1.0
        else 0.0
      case _ => 0.0
  }

  /** The tick count extractTicks reports for `payload`. */
  function TicksOf(payload: JsValue, parse: string -> JsNumber): (t: real)
    ensures t != 0.0 ==> payload.Obj?
    ensures payload.Obj? && FirstUsable(Candidates(payload), parse) < 9 ==> t != 0.0
  {
    if !payload.Obj? then 0.0
    else
      var cs := Candidates(payload);
      var k := FirstUsable(cs, parse);
      if k < |cs| then ToNumber(cs[k], parse).r else DirectionTicks(payload)
  }

  /** extractTicks: the first-match scan over the candidates, then the fallbacks. */
  method ExtractTicks(payload: JsValue, parse: string -> JsNumber) returns (ticks: real)
    ensures ticks == TicksOf(payload, parse)
  {
    if !payload.Obj? {
      return 0.0;
    }
    var cands := Candidates(payload);
    for i := 0 to |cands|
      invariant forall j :: 0 <= j < i ==> !Usable(cands[j], parse)
    {
      var n := ToNumber(cands[i], parse);
      if n.Finite? && n.r != 0.0 {
        return n.r;
      }
    }
    match Get(payload, "isClockwise") {
      case Bool(cw) =>
        return if cw then 1.0 else -1.0;
      case _ =>
    }
    match Get(payload, "direction") {
      case Str(d) =>
        var lower := Lower(d);
        if Contains(lower, "clockwise") {
          return 1.0;
        }
        if Contains(lower, "counter") {
          return -1.0;
        }
      case _ =>
    }
    return 0.0;
  }

  /** A payload that is not an object has no ticks. */
  lemma NonObjectHasNoTicks(payload: JsValue, parse: string -> JsNumber)
    requires !payload.Obj?
    ensures TicksOf(payload, parse) == 0.0
  {
  }

  /** When candidate `i` is the first usable one, its number is the result, and it is non-zero. */
  lemma FirstCandidateWins(payload: JsValue, parse: string -> JsNumber, i: nat)
    requires payload.Obj? && i < 9
    requires Usable(Candidates(payload)[i], parse)
    requires forall j :: 0 <= j < i ==> !Usable(Candidates(payload)[j], parse)
    ensures TicksOf(payload, parse) == ToNumber(Candidates(payload)[i], parse).r
    ensures TicksOf(payload, parse) != 0.0
  {
  }

  /** With no usable candidate, the result is the one-step fallback, so one of -1, 0, 1. */
  lemma FallbackIsOneStep(payload: JsValue, parse: string -> JsNumber)
    requires payload.Obj?
    requires forall j :: 0 <= j < 9 ==> !Usable(Candidates(payload)[j], parse)
    ensures TicksOf(payload, parse) == DirectionTicks(payload)
    ensures TicksOf(payload, parse) in {-1.0, 0.0, 1.0}
  {
  }

  /**
    An event yields no ticks exactly when it is not an object, or no candidate
    is usable and neither fallback field applies.
  */
  lemma {:induction false} NoTicksIff(payload: JsValue, parse: string -> JsNumber)
    ensures TicksOf(payload, parse) == 0.0 <==>
      !payload.Obj? ||
      ( (forall j :: 0 <= j < 9 ==> !Usable(Candidates(payload)[j], parse))
        && !Get(payload, "isClockwise").Bool?
        && (Get(payload, "direction").Str? ==>
              !Contains(Lower(Get(payload, "direction").s), "clockwise")
              && !Contains(Lower(Get(payload, "direction").s), "counter")))
  {
    if payload.Obj? {
      var cs := Candidates(payload);
      var k := FirstUsable(cs, parse);
      if k < |cs| {
        assert Usable(cs[k], parse);
      } else {
        FallbackIsOneStep(payload, parse);
      }
    }
  }

  /**
    "counterclockwise" contains "clockwise", so a direction-only event that
    says counterclockwise counts as one clockwise tick.
  */
  lemma CounterclockwiseCountsAsClockwise(payload: JsValue, parse: string -> JsNumber)
    requires payload.Obj?
    requires forall j :: 0 <= j < 9 ==> !Usable(Candidates(payload)[j], parse)
    requires !Get(payload, "isClockwise").Bool?
    requires Get(payload, "direction").Str? && Lower(Get(payload, "direction").s) == "counterclockwise"
    ensures TicksOf(payload, parse) == 1.0
  {
    var lower := Lower(Get(payload, "direction").s);
    assert lower[7..16] == "clockwise";
    ContainsAt(lower, "clockwise", 7);
    FallbackIsOneStep(payload, parse);
  }

  /** A direction without "clockwise" but with "counter" is one counter-clockwise tick. */
  lemma CounterIsMinusOne(payload: JsValue, parse: string -> JsNumber)
    requires payload.Obj?
    requires forall j :: 0 <= j < 9 ==> !Usable(Candidates(payload)[j], parse)
    requires !Get(payload, "isClockwise").Bool?
    requires Get(payload, "direction").Str? && Lower(Get(payload, "direction").s) == "counter"
    ensures TicksOf(payload, parse) == -1.0
  {
    var lower := Lower(Get(payload, "direction").s);
    assert StartsWith(lower, "counter");
    assert !Contains(lower, "clockwise");
    FallbackIsOneStep(payload, parse);
  }
}

=== FILE: js_values.dfy ===
/**
  The slice of JavaScript's value domain that the plugin inspects: event
  payloads as decoded JSON values, numbers as finite reals or a non-finite
  marker, and the few built-in coercions the plugin applies to them.
*/
module JsValues {

  /** A JavaScript number: a finite value, or one of NaN, Infinity, -Infinity. */
  datatype JsNumber = Finite(r: real) | NonFinite

  /** A JSON-like payload value (arrays are not part of this model). */
  datatype JsValue =
    | Undefined
    | Null
    | Bool(b: bool)
    | Num(n: JsNumber)
    | Str(s: string)
    | Obj(fields: map<string, JsValue>)

  /** Property read `v.key`; `undefined` on a missing key or a non-object. */
  function Get(v: JsValue, key: string): JsValue {
    if v.Obj? && key in v.fields then v.fields[key] else Undefined
  }

  /**
    `Number(v)`. The parsing of strings is the parameter `parse`; a plain
    object converts through "[object Object]" and so gives NaN.
  */
  function ToNumber(v: JsValue, parse: string -> JsNumber): (n: JsNumber)
    ensures v.Undefined? || v.Obj? ==> n.NonFinite?
    ensures v.Null? ==> n == Finite(0.0)
    ensures v.Bool? ==> n == Finite(if v.b then 1.0 else 0.0)
    ensures v.Num? ==> n == v.n
    ensures v.Str? ==> n == parse(v.s)
  {
    match v
    case Undefined => NonFinite
    case Null => Finite(0.0)
    case Bool(b) => Finite(if b then 1.0 else 0.0)
    case Num(n) => n
    case Str(s) => parse(s)
    case Obj(_) => NonFinite
  }

  /** `toLowerCase` on one character; only ASCII letters are mapped. */
  function LowerChar(c: char): char {
    if 'A' <= c <= 'Z' then (c as int + 32) as char else c
  }

  /** `s.toLowerCase()` restricted to ASCII. */
  function Lower(s: string): (r: string)
    ensures |r| == |s|
    ensures forall i :: 0 <= i < |s| ==> r[i] == LowerChar(s[i])
    ensures forall i :: 0 <= i < |r| ==> !('A' <= r[i] <= 'Z')
  {
    if s == [] then [] else [LowerChar(s[0])] + Lower(s[1..])
  }

  predicate StartsWith(s: string, prefix: string) {
    |prefix| <= |s| && s[..|prefix|] == prefix
  }

  /** `s.includes(sub)`. */
  predicate Contains(s: string, sub: string)
    decreases |s|
  {
    StartsWith(s, sub) || (|s| > 0 && Contains(s[1..], sub))
  }

  /** `Contains` holds exactly when `sub` occurs at some index of `s`. */
  lemma {:induction false} ContainsAt(s: string, sub: string, i: nat)
    requires i + |sub| <= |s| && s[i..i + |sub|] == sub
    ensures Contains(s, sub)
    decreases i
  {
    if i == 0 {
      assert s[..|sub|] == sub;
    } else {
      assert s[1..][i - 1..i - 1 + |sub|] == s[i..i + |sub|];
      ContainsAt(s[1..], sub, i - 1);
    }
  }

  lemma {:induction false} ContainsWitness(s: string, sub: string) returns (i: nat)
    requires Contains(s, sub)
    ensures i + |sub| <= |s| && s[i..i + |sub|] == sub
    decreases |s|
  {
    if StartsWith(s, sub) {
      i := 0;
    } else {
      var j := ContainsWitness(s[1..], sub);
      assert s[1..][j..j + |sub|] == s[j + 1..j + 1 + |sub|];
      i := j + 1;
    }
  }
}

=== FILE: lua_literal.dfy ===
/**
  The wire format of a queued command: a Lua table constructor
  `{ type = '<type>', target = '<target>'[, value = <number>] }`
  (section 2.5.7 of the Lua 5.1 Reference Manual). The type and target are
  pasted between single quotes without escaping, so the text is a valid Lua
  literal only when neither contains a quote; `ParseLiteral` recovers the
  fields exactly in that case.
*/
module LuaLiteral {
  import opened Wrappers
  import opened JsValues

  /** `{type, target, value?}`; `kind` is the JavaScript `type` field. */
  datatype Command = Command(kind: string, target: string, value: Option<real>)

  function Invoke(target: string): Command {
    Command("invoke", target, None)
  }

  function Delta(target: string, amount: real): Command {
    Command("delta", target, Some(amount))
  }

  const TypeOpen: string := "{ type = '"
  const TargetOpen: string := "', target = '"
  const ValueOpen: string := ", value = "
  const Close: string := " }"

  /**
    toLuaTableLiteral. `render` is JavaScript's `String(number)`, taken as a
    parameter because the model does not fix a decimal rendering of reals.
  */
  function Literal(cmd: Command, render: real -> string): (s: string)
    ensures cmd.value.None? ==>
      s == "{ type = '" + cmd.kind + "', target = '" + cmd.target + "' }"
    ensures cmd.value.Some? ==>
      s == "{ type = '" + cmd.kind + "', target = '" + cmd.target + "', value = "
           + render(cmd.value.value) + " }"
  {
    TypeOpen + cmd.kind + TargetOpen + cmd.target + "'"
    + (if cmd.value.Some? then ValueOpen + render(cmd.value.value) else "")
    + Close
  }

  /** The literal of each command, in order. */
  function Literals(cmds: seq<Command>, render: real -> string): (ls: seq<string>)
    ensures |ls| == |cmds|
    ensures forall i :: 0 <= i < |cmds| ==> ls[i] == Literal(cmds[i], render)
  {
    seq(|cmds|, i requires 0 <= i < |cmds| => Literal(cmds[i], render))
  }

  lemma LiteralsAppend(a: seq<Command>, b: seq<Command>, render: real -> string)
    ensures Literals(a + b, render) == Literals(a, render) + Literals(b, render)
  {
  }

  /** What a reader of the literal can get back: both names and the rendered number. */
  datatype Fields = Fields(kind: string, target: string, valueText: Option<string>)

  predicate QuoteFree(s: string) {
    '\'' !in s
  }

  /** The index of the first `c` in `s`, or `|s|` when there is none. */
  function IndexOf(s: string, c: char): (k: nat)
    ensures k <= |s|
    ensures c !in s[..k]
    ensures k < |s| ==> s[k] == c
  {
    if s == [] then 0
    else if s[0] == c then 0
    else
      var k := 1 + IndexOf(s[1..], c);
      assert s[..k] == [s[0]] + s[1..][..k - 1];
      k
  }

  /** Reads a literal back: the text up to each closing quote, then the tail. */
  function ParseLiteral(s: string): Option<Fields> {
    if StartsWith(s, TypeOpen) then ParseKind(s[|TypeOpen|..]) else None
  }

  /** The type runs up to the first quote, which must open `', target = '`. */
  function ParseKind(t: string): Option<Fields> {
    var i := IndexOf(t, '\'');
    if StartsWith(t[i..], TargetOpen) then ParseTarget(t[..i], t[i..][|TargetOpen|..]) else None
  }

  /** The target runs up to the next quote. */
  function ParseTarget(kind: string, t: string): Option<Fields> {
    var j := IndexOf(t, '\'');
    if j == |t| then None else ParseTail(kind, t[..j], t[j + 1..])
  }

  /** What follows the target's closing quote: ` }`, or `, value = <text> }`. */
  function ParseTail(kind: string, target: string, tail: string): Option<Fields> {
    if tail == Close then Some(Fields(kind, target, None))
    else if StartsWith(tail, ValueOpen) && |ValueOpen| + |Close| <= |tail|
            && tail[|tail| - |Close|..] == Close
    then Some(Fields(kind, target, Some(tail[|ValueOpen|..|tail| - |Close|])))
    else None
  }

  lemma IndexOfFirst(a: string, b: string, c: char)
    requires c !in a && |b| > 0 && b[0] == c
    ensures IndexOf(a + b, c) == |a|
  {
    assert (a + b)[|a|] == c;
    assert (a + b)[..|a|] == a;
  }

  function TailOf(value: Option<real>, render: real -> string): string {
    (if value.Some? then ValueOpen + render(value.value) else "") + Close
  }

  function RenderedValue(value: Option<real>, render: real -> string): Option<string> {
    if value.Some? then Some(render(value.value)) else None
  }

  lemma TailParses(kind: string, target: string, value: Option<real>, render: real -> string)
    ensures ParseTail(kind, target, TailOf(value, render))
            == Some(Fields(kind, target, RenderedValue(value, render)))
  {
    var tail := TailOf(value, render);
    if value.Some? {
      var v := render(value.value);
      assert tail == ValueOpen + v + Close;
      assert |tail| != |Close|;
      assert tail[..|ValueOpen|] == ValueOpen;
      assert tail[|tail| - |Close|..] == Close;
      assert tail[|ValueOpen|..|tail| - |Close|] == v;
    }
  }

  lemma TargetParses(kind: string, target: string, tail: string)
    requires QuoteFree(target)
    ensures ParseTarget(kind, target + "'" + tail) == ParseTail(kind, target, tail)
  {
    var t := target + "'" + tail;
    assert t == target + ("'" + tail);
    IndexOfFirst(target, "'" + tail, '\'');
    assert t[..|target|] == target;
    assert t[|target| + 1..] == tail;
  }

  lemma KindParses(kind: string, rest: string)
    requires QuoteFree(kind)
    ensures ParseKind(kind + TargetOpen + rest) == ParseTarget(kind, rest)
  {
    var t := kind + TargetOpen + rest;
    assert t == kind + (TargetOpen + rest);
    IndexOfFirst(kind, TargetOpen + rest, '\'');
    assert t[..|kind|] == kind;
    assert t[|kind|..] == TargetOpen + rest;
    assert (TargetOpen + rest)[..|TargetOpen|] == TargetOpen;
    assert (TargetOpen + rest)[|TargetOpen|..] == rest;
  }

  /**
    Round trip: for quote-free names, parsing the literal gives back the type,
    the target, and the rendered value exactly when the command has one.
  */
  lemma {:induction false} LiteralRoundTrip(cmd: Command, render: real -> string)
    requires QuoteFree(cmd.kind) && QuoteFree(cmd.target)
    ensures ParseLiteral(Literal(cmd, render))
            == Some(Fields(cmd.kind, cmd.target, RenderedValue(cmd.value, render)))
  {
    var tail := TailOf(cmd.value, render);
    var rest := cmd.target + "'" + tail;
    var s := Literal(cmd, render);
    assert s == TypeOpen + (cmd.kind + TargetOpen + rest);
    assert s[..|TypeOpen|] == TypeOpen;
    assert s[|TypeOpen|..] == cmd.kind + TargetOpen + rest;
    KindParses(cmd.kind, rest);
    TargetParses(cmd.kind, cmd.target, tail);
    TailParses(cmd.kind, cmd.target, cmd.value, render);
  }

  /** Quote-free commands with the same literal agree on type, target and whether a value is sent. */
  lemma LiteralInjective(c1: Command, c2: Command, render: real -> string)
    requires QuoteFree(c1.kind) && QuoteFree(c1.target)
    requires QuoteFree(c2.kind) && QuoteFree(c2.target)
    requires Literal(c1, render) == Literal(c2, render)
    ensures c1.kind == c2.kind && c1.target == c2.target
    ensures c1.value.Some? <==> c2.value.Some?
    ensures c1.value.Some? ==> render(c1.value.value) == render(c2.value.value)
  {
    LiteralRoundTrip(c1, render);
    LiteralRoundTrip(c2, render);
  }

  /**
    Without escaping, the separator `', target = '` inside a target reads the
    same as that separator after the type: the literal cannot tell the two apart.
  */
  lemma SeparatorShifts(kind: string, a: string, b: string, render: real -> string)
    ensures Literal(Command(kind, a + TargetOpen + b, None), render)
            == Literal(Command(kind + TargetOpen + a, b, None), render)
  {
    assert TypeOpen + kind + TargetOpen + (a + TargetOpen + b)
           == TypeOpen + (kind + TargetOpen + a) + TargetOpen + b;
  }

  /** So two different commands can share one literal. */
  lemma UnescapedQuotesCollide(render: real -> string)
    ensures var c1 := Invoke("b', target = 'c");
            var c2 := Command("invoke', target = 'b", "c", None);
            c1 != c2 && Literal(c1, render) == Literal(c2, render)
  {
    var c1 := Invoke("b', target = 'c");
    var c2 := Command("invoke', target = 'b", "c", None);
    assert "b" + TargetOpen + "c" == c1.target;
    assert "invoke" + TargetOpen + "b" == c2.kind;
    SeparatorShifts("invoke", "b", "c", render);
  }

  /** The exposure example: one delta of 0.1 on Exposure2012, when 0.1 renders as "0.1". */
  lemma ExposureDeltaLiteral(render: real -> string)
    requires render(0.1) == "0.1"
    ensures Literal(Delta("Exposure2012", 0.1), render)
            == "{ type = 'delta', target = 'Exposure2012', value = 0.1 }"
  {
    assert Literal(Delta("Exposure2012", 0.1), render)
           == "{ type = '" + "delta" + "', target = '" + "Exposure2012" + "', value = " + "0.1" + " }";
    assert "{ type = '" + "delta" == "{ type = 'delta";
    assert "{ type = 'delta" + "', target = '" == "{ type = 'delta', target = '";
    assert "{ type = 'delta', target = '" + "Exposure2012" == "{ type = 'delta', target = 'Exposure2012";
    assert "{ type = 'delta', target = 'Exposure2012" + "', value = "
           == "{ type = 'delta', target = 'Exposure2012', value = ";
    assert "{ type = 'delta', target = 'Exposure2012', value = " + "0.1"
           == "{ type = 'delta', target = 'Exposure2012', value = 0.1";
  }

  /** An invoke command carries no value field. */
  lemma InvokeLiteral(target: string, render: real -> string)
    ensures Literal(Invoke(target), render) == "{ type = 'invoke', target = '" + target + "' }"
  {
  }

  /** Every literal opens with the type field, so none is empty. */
  lemma LiteralNonEmpty(cmd: Command, render: real -> string)
    ensures |Literal(cmd, render)| > |TypeOpen|
    ensures StartsWith(Literal(cmd, render), TypeOpen)
  {
    var s := Literal(cmd, render);
    assert s[..|TypeOpen|] == TypeOpen;
  }
}

=== FILE: plugin.dfy ===
/**
  The bridge to the control-surface runtime: the nine action objects the
  plugin registers, and the routing of each incoming message to the object
  named by the last segment of its action UUID.
*/
module Plugin {
  import opened Wrappers
  import opened JsValues
  import opened LuaLiteral
  import opened Settings
  import opened InputNormalizer
  import opened QueueServer
  import opened PluginActions
  import opened ActionHandlers

  /** Where the last dot-separated segment of `s` starts. */
  function SegmentStart(s: string): (k: nat)
    ensures k <= |s|
    ensures forall i :: k <= i < |s| ==> s[i] != '.'
    ensures k > 0 ==> s[k - 1] == '.'
    decreases |s|
  {
    if s == [] then 0
    else if s[|s| - 1] == '.' then |s|
    else SegmentStart(s[..|s| - 1])
  }

  /** `s.split('.').pop()`: the text after the last dot, all of `s` when it has none. */
  function LastSegment(s: string): (r: string)
    ensures '.' !in r
    ensures |r| <= |s| && r == s[|s| - |r|..]
    ensures |r| < |s| ==> s[|s| - |r| - 1] == '.'
  {
    s[SegmentStart(s)..]
  }

  /** The dispatch key `data.action?.split('.').pop()`. */
  function ActionKey(action: Option<string>): (key: Option<string>)
    ensures key.Some? <==> action.Some?
    ensures key.Some? ==> '.' !in key.value && |key.value| <= |action.value|
                          && key.value == action.value[|action.value| - |key.value|..]
  {
    match action
    case Some(uuid) => Some(LastSegment(uuid))
    case None => None
  }

  /** A UUID without a dot is its own key. */
  lemma NoDotIsWholeKey(s: string)
    requires '.' !in s
    ensures LastSegment(s) == s
  {
  }

  /** The key is what follows the last dot. */
  lemma KeyAfterLastDot(prefix: string, suffix: string)
    requires '.' !in suffix
    ensures LastSegment(prefix + "." + suffix) == suffix
  {
    var s := prefix + "." + suffix;
    var k := SegmentStart(s);
    assert s[|prefix|] == '.';
    assert forall i :: |prefix| < i < |s| ==> s[i] == suffix[i - |prefix| - 1];
    assert s[|prefix| + 1..] == suffix;
  }

  /** The control action's UUID dispatches to `control`. */
  lemma ControlUuidKey()
    ensures ActionKey(Some("com.streamdock.lightroom.enhanced.control")) == Some("control")
  {
    assert "com.streamdock.lightroom.enhanced.control" == "com.streamdock.lightroom.enhanced" + "." + "control";
    KeyAfterLastDot("com.streamdock.lightroom.enhanced", "control");
  }

  /** A newly registered action object: its key and kind, empty defaults, no contexts yet. */
  ghost predicate Blank(a: Actions, name: string, kind: ActionKind)
    reads a
  {
    a.name == name && a.kind == kind && a.defaults == map[] && a.data == map[]
  }

  /** `plugin.exposure` … `plugin.shadows`: one knob per Lightroom parameter. */
  method NewKnobs() returns (exposure: Actions, contrast: Actions, highlights: Actions, shadows: Actions)
    ensures fresh(exposure) && Blank(exposure, "exposure", Knob("Exposure2012"))
    ensures fresh(contrast) && Blank(contrast, "contrast", Knob("Contrast2012"))
    ensures fresh(highlights) && Blank(highlights, "highlights", Knob("Highlights2012"))
    ensures fresh(shadows) && Blank(shadows, "shadows", Knob("Shadows2012"))
  {
    exposure := new Actions("exposure", Knob("Exposure2012"), Some(map[]), None);
    contrast := new Actions("contrast", Knob("Contrast2012"), Some(map[]), None);
    highlights := new Actions("highlights", Knob("Highlights2012"), Some(map[]), None);
    shadows := new Actions("shadows", Knob("Shadows2012"), Some(map[]), None);
  }

  /** `plugin.togglebeforeafter` … `plugin.pastesettings`: one button per Lightroom action. */
  method NewButtons() returns (toggle: Actions, reset: Actions, copy: Actions, paste: Actions)
    ensures fresh(toggle) && Blank(toggle, "togglebeforeafter", Button("ToggleBeforeAfter"))
    ensures fresh(reset) && Blank(reset, "reset", Button("Reset"))
    ensures fresh(copy) && Blank(copy, "copysettings", Button("CopySettings"))
    ensures fresh(paste) && Blank(paste, "pastesettings", Button("PasteSettings"))
  {
    toggle := new Actions("togglebeforeafter", Button("ToggleBeforeAfter"), Some(map[]), None);
    reset := new Actions("reset", Button("Reset"), Some(map[]), None);
    copy := new Actions("copysettings", Button("CopySettings"), Some(map[]), None);
    paste := new Actions("pastesettings", Button("PasteSettings"), Some(map[]), None);
  }

  class Plugins {
    /** The queue server of the same process. */
    const server: Server
    const globals: Globals
    /** The action objects by the key their UUIDs end with. */
    const table: map<string, Actions>

    ghost predicate Valid()
      reads this, server
    {
      && server.Valid()
      && forall k :: k in table ==> table[k].name == k
    }

    /** The action object a message is routed to, if any. */
    function Hit(msg: Message): (h: Option<string>)
      ensures h.Some? ==> h.value in table && ActionKey(msg.action) == h
      ensures h.None? ==> ActionKey(msg.action).None? || ActionKey(msg.action).value !in table
    {
      var key := ActionKey(msg.action);
      if key.Some? && key.value in table then key else None
    }

    /** The registrations of index.js, each with the defaults and handlers it is given. */
    constructor(server: Server)
      requires server.Valid()
      ensures Valid()
      ensures this.server == server && fresh(globals)
      ensures table.Keys == {"control", "exposure", "contrast", "highlights", "shadows",
                             "togglebeforeafter", "reset", "copysettings", "pastesettings"}
      ensures fresh(table["control"]) && table["control"].data == map[]
      ensures table["control"].kind == Control && table["control"].defaults == map["target" := "Exposure"]
      ensures fresh(table["exposure"]) && Blank(table["exposure"], "exposure", Knob("Exposure2012"))
      ensures fresh(table["contrast"]) && Blank(table["contrast"], "contrast", Knob("Contrast2012"))
      ensures fresh(table["highlights"]) && Blank(table["highlights"], "highlights", Knob("Highlights2012"))
      ensures fresh(table["shadows"]) && Blank(table["shadows"], "shadows", Knob("Shadows2012"))
      ensures fresh(table["togglebeforeafter"])
        && Blank(table["togglebeforeafter"], "togglebeforeafter", Button("ToggleBeforeAfter"))
      ensures fresh(table["reset"]) && Blank(table["reset"], "reset", Button("Reset"))
      ensures fresh(table["copysettings"]) && Blank(table["copysettings"], "copysettings", Button("CopySettings"))
      ensures fresh(table["pastesettings"])
        && Blank(table["pastesettings"], "pastesettings", Button("PasteSettings"))
    {
      this.server := server;
      globals := new Globals();
      var control := new Actions("control", Control, Some(map["target" := "Exposure"]), None);
      var exposure, contrast, highlights, shadows := NewKnobs();
      var toggle, reset, copy, paste := NewButtons();
      table := map["control" := control, "exposure" := exposure, "contrast" := contrast,
                   "highlights" := highlights, "shadows" := shadows, "togglebeforeafter" := toggle,
                   "reset" := reset, "copysettings" := copy, "pastesettings" := paste];
      new;
      assert table["control"] == control && table["exposure"] == exposure;
      assert table["contrast"] == contrast && table["highlights"] == highlights;
      assert table["shadows"] == shadows && table["togglebeforeafter"] == toggle;
      assert table["reset"] == reset && table["copysettings"] == copy;
      assert table["pastesettings"] == paste;
    }

    /**
      One runtime message: the action object named by the UUID's last segment
      handles the event, then a global-settings event updates the shared copy.
    */
    method Dispatch(msg: Message)
      requires Valid() && OneSpelling(msg.event)
      modifies server, globals, table.Values
      ensures Valid()
      ensures server.queue == old(server.queue) + Literals(
        if Hit(msg).Some?
        then EventCommands(table[Hit(msg).value].kind, old(table[Hit(msg).value].data), msg, server.sens, server.parse)
        else [], server.render)
      ensures forall k :: k in table ==>
        table[k].data == if Hit(msg) == Some(k)
                         then DataAfter(table[k].kind, table[k].defaults, old(table[k].data), msg)
                         else old(table[k].data)
      ensures globals.actions ==
        if Hit(msg).Some? && msg.event == WillAppear then old(globals.actions)[msg.context := msg.action]
        else old(globals.actions)
      ensures globals.globalContext ==
        if Hit(msg).Some? && msg.event == WillAppear then Some(msg.context) else old(globals.globalContext)
      ensures Hit(msg).Some? && msg.event == PropertyInspectorDidAppear ==>
        globals.currentAction == msg.action && globals.currentContext == Some(msg.context)
      ensures !(Hit(msg).Some? && msg.event == PropertyInspectorDidAppear) ==>
        globals.currentAction == old(globals.currentAction) && globals.currentContext == old(globals.currentContext)
      ensures globals.globalSettings ==
        if msg.event == DidReceiveGlobalSettings && !NoPayload(msg) then IncomingSettings(msg)
        else old(globals.globalSettings)
      ensures Hit(msg).Some? ==>
        var sent := EventCommands(table[Hit(msg).value].kind, old(table[Hit(msg).value].data), msg,
                                  server.sens, server.parse);
        forall c :: c in sent ==> WellFormed(c)
    {
      if Hit(msg).Some? {
        var a := table[Hit(msg).value];
        LiveCommandsWellFormed(a.kind, a.data, msg, server.sens, server.parse);
      }
      Route(msg);
      if msg.event == DidReceiveGlobalSettings && !NoPayload(msg) {
        globals.globalSettings := IncomingSettings(msg);
      }
    }

    /**
      The routing half of `Dispatch`: the queue grows by the commands of the
      routed handler, only the routed object's table changes, and the shared
      fields follow the event.
    */
    method Route(msg: Message)
      requires Valid()
      modifies server, globals, table.Values
      ensures Valid()
      ensures server.queue == old(server.queue) + Literals(
        if Hit(msg).Some?
        then EventCommands(table[Hit(msg).value].kind, old(table[Hit(msg).value].data), msg, server.sens, server.parse)
        else [], server.render)
      ensures forall k :: k in table ==>
        table[k].data == if Hit(msg) == Some(k)
                         then DataAfter(table[k].kind, table[k].defaults, old(table[k].data), msg)
                         else old(table[k].data)
      ensures globals.actions ==
        if Hit(msg).Some? && msg.event == WillAppear then old(globals.actions)[msg.context := msg.action]
        else old(globals.actions)
      ensures globals.globalContext ==
        if Hit(msg).Some? && msg.event == WillAppear then Some(msg.context) else old(globals.globalContext)
      ensures Hit(msg).Some? && msg.event == PropertyInspectorDidAppear ==>
        globals.currentAction == msg.action && globals.currentContext == Some(msg.context)
      ensures !(Hit(msg).Some? && msg.event == PropertyInspectorDidAppear) ==>
        globals.currentAction == old(globals.currentAction) && globals.currentContext == old(globals.currentContext)
      ensures globals.globalSettings == old(globals.globalSettings)
    {
      var hit := Hit(msg);
      if hit.Some? {
        var a := table[hit.value];
        assert forall k :: k in table && k != hit.value ==> table[k] != a;
        HandleEvent(a, msg);
      }
    }

    /** `this[action][event](data)` on one action object. */
    method HandleEvent(a: Actions, msg: Message)
      requires Valid() && a in table.Values
      modifies server, globals, a
      ensures Valid()
      ensures server.queue == old(server.queue)
        + Literals(EventCommands(a.kind, old(a.data), msg, server.sens, server.parse), server.render)
      ensures a.data == DataAfter(a.kind, a.defaults, old(a.data), msg)
      ensures globals.actions ==
        if msg.event == WillAppear then old(globals.actions)[msg.context := msg.action] else old(globals.actions)
      ensures globals.globalContext ==
        if msg.event == WillAppear then Some(msg.context) else old(globals.globalContext)
      ensures msg.event == PropertyInspectorDidAppear ==>
        globals.currentAction == msg.action && globals.currentContext == Some(msg.context)
      ensures msg.event != PropertyInspectorDidAppear ==>
        globals.currentAction == old(globals.currentAction) && globals.currentContext == old(globals.currentContext)
      ensures globals.globalSettings == old(globals.globalSettings)
    {
      match msg.event {
        case WillAppear =>
          a.OnWillAppear(msg, globals);
        case DidReceiveSettings =>
          a.OnDidReceiveSettings(msg);
        case WillDisappear =>
          a.OnWillDisappear(msg);
        case PropertyInspectorDidAppear =>
          a.OnPropertyInspectorDidAppear(msg, globals);
        case KeyUp =>
          SendCommand(a, msg);
        case DialDown =>
          SendCommand(a, msg);
        case DialRotate =>
          SendCommand(a, msg);
        case SendToPlugin =>
          if a.kind == Control {
            var next := Overlay(ContextSettings(a.data, msg.context), SettingsOf(msg.payload));
            a.data := a.data[msg.context := next];
          }
        case DidReceiveGlobalSettings =>
        case Other(_) =>
      }
    }
  

    /** Enqueue what the routed handler decides for a press or rotation. */
    method SendCommand(a: Actions, msg: Message)
      requires server.Valid()
      modifies server
      ensures server.Valid()
      ensures server.queue == old(server.queue)
        + Literals(EventCommands(a.kind, a.data, msg, server.sens, server.parse), server.render)
    {
      var c := CommandFor(a.kind, a.data, msg, server.sens, server.parse);
      if c.Some? {
        server.Enqueue(c.value);
        assert Literals([c.value], server.render) == [Literal(c.value, server.render)];
      }
    }
  }

  /**
    The imperative counterpart of `EventCommands`: the keyUp, dialDown and
    dialRotate handlers of each kind of action as they run, with the settings
    lookup, the fallbacks, and the tick scan of `ExtractTicks` in place of
    `TicksOf`.
  */
  method CommandFor(kind: ActionKind, data: map<string, Settings>, msg: Message,
                    sens: real, parse: string -> JsNumber) returns (c: Option<Command>)
    ensures ToSeq(c) == EventCommands(kind, data, msg, sens, parse)
  {
    var s := ContextSettings(data, msg.context);
    c := None;
    match msg.event {
      case KeyUp =>
        match kind {
          case Control =>
            var id := Or(InvokeActionOf(s), TargetOf(s));
            if id != "" {
              c := Some(Invoke(id));
            }
            assert c == KeyUpCommand(s);
          case Button(id) =>
            c := Some(Invoke(id));
          case Knob(_) =>
        }
      case DialDown =>
        if kind == Control {
          var id := InvokeActionOf(s);
          if id != "" {
            c := Some(Invoke(id));
          }
          assert c == DialDownCommand(s);
        }
      case DialRotate =>
        match kind {
          case Control =>
            var target := TargetOf(s);
            if target != "" {
              var ticks := ExtractTicks(msg.payload, parse);
              c := RotationDelta(target, ticks, sens);
            }
            assert c == ControlRotateCommand(s, msg.payload, sens, parse);
          case Knob(param) =>
            var ticks := ExtractTicks(msg.payload, parse);
            c := RotationDelta(param, ticks, sens);
          case Button(_) =>
        }
      case _ =>
    }
  }


}

=== FILE: plugin_actions.dfy ===
/**
  The `Actions` class: one per action type of the control surface, holding
  the settings of every visible control (context) of that type, and the
  static bookkeeping the class shares across its instances.
*/
module PluginActions {
  import opened Wrappers
  import opened JsValues
  import opened Settings

  /** The events the runtime delivers, by name. */
  datatype EventName =
    | WillAppear
    | DidReceiveSettings
    | WillDisappear
    | PropertyInspectorDidAppear
    | KeyUp
    | DialDown
    | DialRotate
    | SendToPlugin
    | DidReceiveGlobalSettings
    | Other(name: string)

  /** The event names the handlers know, as the runtime spells them. */
  const HandledNames: set<string> := {
    "willAppear", "didReceiveSettings", "willDisappear", "propertyInspectorDidAppear",
    "keyUp", "dialDown", "dialRotate", "sendToPlugin", "didReceiveGlobalSettings" }

  /** `Other` carries only names with no constructor of their own, so each event has one spelling. */
  predicate OneSpelling(e: EventName) {
    e.Other? ==> e.name !in HandledNames
  }

  /** One decoded runtime message. */
  datatype Message = Message(action: Option<string>, event: EventName, context: string, payload: JsValue)

  /**
    Which handlers an instance was built with: the configurable control, a
    knob bound to one parameter, or a button bound to one action.
  */
  datatype ActionKind = Control | Knob(param: string) | Button(invoke: string)

  /** The settings a message carries in `payload.settings`. */
  function IncomingSettings(msg: Message): Settings {
    SettingsOf(Get(msg.payload, "settings"))
  }

  /**
    Reading `payload.settings` throws: the payload is missing or `null`. The
    handler then stops where it is, and the process-wide exception handler
    only logs, so what the handler has not yet written stays as it was.
  */
  predicate NoPayload(msg: Message) {
    msg.payload.Undefined? || msg.payload.Null?
  }

  /** Static fields: `Actions.actions`, `Actions.currentAction/currentContext`, and `Plugins.globalContext/globalSettings`. */
  class Globals {
    var actions: map<string, Option<string>>
    var currentAction: Option<string>
    var currentContext: Option<string>
    var globalContext: Option<string>
    var globalSettings: Settings

    constructor()
      ensures actions == map[] && currentAction == None && currentContext == None
      ensures globalContext == None && globalSettings == map[]
    {
      actions := map[];
      currentAction := None;
      currentContext := None;
      globalContext := None;
      globalSettings := map[];
    }
  }

  class Actions {
    /** The plugin property the instance is registered under. */
    ghost const name: string
    const kind: ActionKind
    /** The `default` settings a newly visible control starts from. */
    const defaults: Settings
    /** Settings per context. */
    var data: map<string, Settings>

    /**
      `data` and `default` start empty; the constructor argument's own
      `data` and `default` fields, when given, replace them.
    */
    constructor(ghost name: string, kind: ActionKind,
                initDefault: Option<Settings>, initData: Option<map<string, Settings>>)
      ensures this.name == name && this.kind == kind
      ensures defaults == initDefault.GetOr(map[])
      ensures data == initData.GetOr(map[])
    {
      this.name := name;
      this.kind := kind;
      defaults := initDefault.GetOr(map[]);
      data := initData.GetOr(map[]);
    }

    /**
      willAppear: the context is recorded in the shared tables; then the
      control's settings become the defaults overlaid by the incoming
      settings, unless the payload is missing and the destructuring throws.
    */
    method OnWillAppear(msg: Message, g: Globals)
      modifies this, g
      ensures NoPayload(msg) ==> data == old(data)
      ensures !NoPayload(msg) ==> data == old(data)[msg.context := Overlay(defaults, IncomingSettings(msg))]
      ensures g.actions == old(g.actions)[msg.context := msg.action]
      ensures g.globalContext == Some(msg.context)
      ensures g.currentAction == old(g.currentAction) && g.currentContext == old(g.currentContext)
      ensures g.globalSettings == old(g.globalSettings)
    {
      g.globalContext := Some(msg.context);
      g.actions := g.actions[msg.context := msg.action];
      if !NoPayload(msg) {
        data := data[msg.context := Overlay(defaults, IncomingSettings(msg))];
      }
    }

    /**
      didReceiveSettings: the incoming settings replace the context's entry
      wholesale; a missing payload throws before anything is written.
    */
    method OnDidReceiveSettings(msg: Message)
      modifies this
      ensures NoPayload(msg) ==> data == old(data)
      ensures !NoPayload(msg) ==> data == old(data)[msg.context := IncomingSettings(msg)]
    {
      if !NoPayload(msg) {
        data := data[msg.context := IncomingSettings(msg)];
      }
    }

    /** willDisappear: the context's entry is removed and nothing else. */
    method OnWillDisappear(msg: Message)
      modifies this
      ensures data == old(data) - {msg.context}
      ensures msg.context !in data
      ensures forall c :: c in old(data) && c != msg.context ==> c in data && data[c] == old(data)[c]
    {
      data := data - {msg.context};
    }

    /** propertyInspectorDidAppear: remember which action and context the inspector shows. */
    method OnPropertyInspectorDidAppear(msg: Message, g: Globals)
      modifies g
      ensures g.currentAction == msg.action && g.currentContext == Some(msg.context)
      ensures g.actions == old(g.actions) && g.globalContext == old(g.globalContext)
      ensures g.globalSettings == old(g.globalSettings)
    {
      g.currentAction := msg.action;
      g.currentContext := Some(msg.context);
    }
  }

  /**
    The settings table after `msg` reaches an instance of `kind`: the three
    lifecycle events of the class, and the control's `sendToPlugin`, which
    overlays the payload onto the current settings. A willAppear or
    didReceiveSettings without a payload throws and changes no entry.
  */
  function DataAfter(kind: ActionKind, defaults: Settings, data: map<string, Settings>, msg: Message)
    : (d: map<string, Settings>)
    ensures forall c :: c != msg.context ==> (c in d <==> c in data)
    ensures forall c :: c != msg.context && c in d ==> d[c] == data[c]
    ensures msg.event == WillDisappear ==> msg.context !in d
    ensures msg.event == SendToPlugin && kind == Control ==>
      d == data[msg.context := Overlay(ContextSettings(data, msg.context), SettingsOf(msg.payload))]
    ensures (msg.event != WillAppear && msg.event != DidReceiveSettings && msg.event != WillDisappear
             && !(msg.event == SendToPlugin && kind == Control)) ==> d == data
    ensures msg.event == WillAppear && !NoPayload(msg) ==>
      msg.context in d && d[msg.context] == Overlay(defaults, IncomingSettings(msg))
    ensures msg.event == DidReceiveSettings && !NoPayload(msg) ==>
      msg.context in d && d[msg.context] == IncomingSettings(msg)
    ensures (msg.event == WillAppear || msg.event == DidReceiveSettings) && NoPayload(msg) ==> d == data
  {
    match msg.event
    case WillAppear =>
      if NoPayload(msg) then data else data[msg.context := Overlay(defaults, IncomingSettings(msg))]
    case DidReceiveSettings =>
      if NoPayload(msg) then data else data[msg.context := IncomingSettings(msg)]
    case WillDisappear => data - {msg.context}
    case SendToPlugin =>
      if kind == Control
      then data[msg.context := Overlay(ContextSettings(data, msg.context), SettingsOf(msg.payload))]
      else data
    case _ => data
  }

  /** A control that appears and then disappears leaves the table as it found it, if it was not there before. */
  lemma AppearThenDisappear(kind: ActionKind, defaults: Settings, data: map<string, Settings>,
                            appear: Message, disappear: Message)
    requires appear.event == WillAppear && disappear.event == WillDisappear
    requires appear.context == disappear.context && appear.context !in data
    ensures DataAfter(kind, defaults, DataAfter(kind, defaults, data, appear), disappear) == data
  {
    var d := DataAfter(kind, defaults, DataAfter(kind, defaults, data, appear), disappear);
    assert d.Keys == data.Keys;
  }
}

=== FILE: queue_server.dfy ===
/**
  The command queue and the loopback HTTP protocol that drains it: the
  queue is a sequence of serialized literals, appended at the tail by
  `Enqueue` and shifted off the head by `/poll`.
*/
module QueueServer {
  import opened Wrappers
  import opened JsValues
  import opened LuaLiteral
  import opened Decimal
  import opened InputNormalizer

  /** What one `/poll` hands out: the head literal, or the empty (204) signal. */
  datatype PollResult = Served(item: string) | Empty

  /** `queue.shift()`, then serve the item only when it is truthy. */
  function PollStep(q: seq<string>): (r: (PollResult, seq<string>))
    ensures q == [] ==> r == (Empty, [])
    ensures q != [] ==> r.1 == q[1..]
    ensures r.0.Served? <==> q != [] && q[0] != ""
    ensures r.0.Served? ==> q == [r.0.item] + r.1
  {
    if q == [] then (Empty, [])
    else if q[0] != "" then (Served(q[0]), q[1..])
    else (Empty, q[1..])
  }

  /** The results of `n` consecutive polls starting from queue `q`. */
  function DrainResults(q: seq<string>, n: nat): seq<PollResult>
    decreases n
  {
    if n == 0 then [] else [PollStep(q).0] + DrainResults(PollStep(q).1, n - 1)
  }

  /** The queue left after `n` consecutive polls starting from `q`. */
  function DrainRemaining(q: seq<string>, n: nat): seq<string>
    decreases n
  {
    if n == 0 then q else DrainRemaining(PollStep(q).1, n - 1)
  }

  ghost predicate NoEmptyItems(q: seq<string>) {
    forall i :: 0 <= i < |q| ==> q[i] != ""
  }

  /**
    Polling a queue of literals `n` times serves its items in insertion
    order and then only empty signals, leaving what was not yet served.
  */
  lemma {:induction false} DrainInOrder(q: seq<string>, n: nat)
    requires NoEmptyItems(q)
    ensures |DrainResults(q, n)| == n
    ensures forall i :: 0 <= i < n ==>
      DrainResults(q, n)[i] == if i < |q| then Served(q[i]) else Empty
    ensures DrainRemaining(q, n) == if n <= |q| then q[n..] else []
    decreases n
  {
    if n > 0 {
      var rest := PollStep(q).1;
      assert rest == if q == [] then [] else q[1..];
      DrainInOrder(rest, n - 1);
      var r := DrainResults(q, n);
      assert r == [PollStep(q).0] + DrainResults(rest, n - 1);
      forall i | 0 <= i < n
        ensures r[i] == if i < |q| then Served(q[i]) else Empty
      {
        if i > 0 && q != [] {
          assert r[i] == DrainResults(rest, n - 1)[i - 1];
          assert i - 1 < |rest| <==> i < |q|;
          if i < |q| {
            assert rest[i - 1] == q[i];
          }
        }
      }
      if q != [] && n <= |q| {
        assert rest[n - 1..] == q[n..];
      }
    }
  }

  /** An empty queue stays empty and answers every poll with the empty signal. */
  lemma {:induction false} EmptyQueueStaysEmpty(n: nat)
    ensures DrainRemaining([], n) == []
    ensures forall i :: 0 <= i < |DrainResults([], n)| ==> DrainResults([], n)[i] == Empty
    ensures |DrainResults([], n)| == n
    decreases n
  {
    if n > 0 {
      EmptyQueueStaysEmpty(n - 1);
    }
  }

  /** Response payloads; the JSON bodies of `/enqueue` are kept as their fields. */
  datatype Body =
    | Text(text: string)
    | NoBody
    | Enqueued(count: nat, stepSize: real)
    | Queued(cmd: Command)

  datatype Response = Response(status: nat, body: Body)

  /**
    An HTTP request: method (`verb`), raw URL, and the decoded query parameters
    (`None` when the URL cannot be parsed).
  */
  datatype Request = Request(verb: string, url: string, query: Option<map<string, string>>)

  datatype Route = PollRoute | AckRoute | HealthRoute | QueueLengthRoute | EnqueueRoute | NotFound

  /** The order in which the handler tests method and URL. */
  function RouteOf(req: Request): (r: Route)
    ensures r == PollRoute <==> req.verb == "GET" && req.url == "/poll"
    ensures r == AckRoute <==> req.verb == "POST" && req.url == "/ack"
    ensures r == HealthRoute <==> req.verb == "GET" && req.url == "/health"
    ensures r == QueueLengthRoute <==> req.verb == "GET" && req.url == "/queueLength"
    ensures r == EnqueueRoute <==> req.verb == "GET" && StartsWith(req.url, "/enqueue")
    ensures r == NotFound ==> req.url != "/poll" || req.verb != "GET"
  {
    assert !StartsWith("/poll", "/enqueue") && !StartsWith("/health", "/enqueue");
    assert "/queueLength"[1] != "/enqueue"[1];
    if req.verb == "GET" && req.url == "/poll" then PollRoute
    else if req.verb == "POST" && req.url == "/ack" then AckRoute
    else if req.verb == "GET" && req.url == "/health" then HealthRoute
    else if req.verb == "GET" && req.url == "/queueLength" then QueueLengthRoute
    else if req.verb == "GET" && StartsWith(req.url, "/enqueue") then EnqueueRoute
    else NotFound
  }

  function PollResponse(r: PollResult): Response {
    match r
    case Served(item) => Response(200, Text(item))
    case Empty => Response(204, NoBody)
  }

  /** `url.searchParams.get(key)`: `None` stands for null. */
  function Param(query: map<string, string>, key: string): Option<string> {
    if key in query then Some(query[key]) else None
  }

  /** `searchParams.get(key) || fallback`. */
  function ParamOr(query: map<string, string>, key: string, fallback: string): (s: string)
    ensures fallback != "" ==> s != ""
    ensures key in query && query[key] != "" ==> s == query[key]
    ensures key !in query || query[key] == "" ==> s == fallback
  {
    if key in query && query[key] != "" then query[key] else fallback
  }

  /** `p != null && p !== '' && Number.isFinite(Number(p))`, with that number. */
  function FiniteParam(query: map<string, string>, key: string, parse: string -> JsNumber): (r: Option<real>)
    ensures r.Some? <==> key in query && query[key] != "" && parse(query[key]).Finite?
    ensures r.Some? ==> r.value == parse(query[key]).r
  {
    match Param(query, key)
    case Some(p) => if p != "" && parse(p).Finite? then Some(parse(p).r) else None
    case None => None
  }

  function Abs(x: real): (a: real)
    ensures a >= 0.0 && (a == x || a == -x)
  {
    if x >= 0.0 then x else -x
  }

  /** `Math.trunc(Math.abs(x))`. */
  function TruncAbs(x: real): (n: nat)
    ensures n as real <= Abs(x) < n as real + 1.0
  {
    Abs(x).Floor
  }

  /** What a `/enqueue` request asks for: repeated steps, or one command. */
  datatype Injection = Bulk(target: string, count: nat, stepSize: real) | Single(cmd: Command)

  /**
    The decision of the `/enqueue` handler. `type` defaults to `invoke` and
    `target` to `ToggleBeforeAfter`; a delta with a finite `steps` becomes
    `trunc(|steps|)` steps of the target's default size, signed like `steps`;
    anything else is one command, carrying `value` only when it parses finite.
  */
  function PlanInjection(query: map<string, string>, parse: string -> JsNumber): (inj: Injection)
    ensures var kind := ParamOr(query, "type", "invoke");
            var target := ParamOr(query, "target", "ToggleBeforeAfter");
            var steps := FiniteParam(query, "steps", parse);
            && (inj.Bulk? <==> kind == "delta" && steps.Some?)
            && (inj.Bulk? ==>
                  && inj.target == target
                  && inj.count == TruncAbs(steps.value)
                  && inj.stepSize == if steps.value >= 0.0 then DefaultStepSize(target)
                                     else -DefaultStepSize(target))
            && (inj.Single? ==>
                  inj.cmd == Command(kind, target, FiniteParam(query, "value", parse)))
  {
    var kind := ParamOr(query, "type", "invoke");
    var target := ParamOr(query, "target", "ToggleBeforeAfter");
    var steps := FiniteParam(query, "steps", parse);
    if kind == "delta" && steps.Some? then
      var sign := if steps.value >= 0.0 then 1.0 else -1.0;
      Bulk(target, TruncAbs(steps.value), DefaultStepSize(target) * sign)
    else
      Single(Command(kind, target, FiniteParam(query, "value", parse)))
  }

  /** `n` copies of `cmd`. */
  function Repeat(cmd: Command, n: nat): (cs: seq<Command>)
    ensures |cs| == n
    ensures forall i :: 0 <= i < n ==> cs[i] == cmd
  {
    seq(n, _ => cmd)
  }

  /** The commands an injection appends, in order. */
  function InjectedCommands(inj: Injection): seq<Command> {
    match inj
    case Bulk(target, count, step) => Repeat(Delta(target, step), count)
    case Single(cmd) => [cmd]
  }

  function InjectionResponse(inj: Injection): Response {
    match inj
    case Bulk(_, count, step) => Response(200, Enqueued(count, step))
    case Single(cmd) => Response(200, Queued(cmd))
  }

  /**
    A delta injection with a finite `steps` appends exactly `trunc(|steps|)`
    delta commands on the target, each of its default step signed like `steps`.
  */
  lemma BulkInjection(query: map<string, string>, parse: string -> JsNumber, steps: real)
    requires ParamOr(query, "type", "invoke") == "delta"
    requires FiniteParam(query, "steps", parse) == Some(steps)
    ensures var cs := InjectedCommands(PlanInjection(query, parse));
            var target := ParamOr(query, "target", "ToggleBeforeAfter");
            && |cs| == TruncAbs(steps)
            && forall i :: 0 <= i < |cs| ==>
                 cs[i] == Delta(target, DefaultStepSize(target) * (if steps >= 0.0 then 1.0 else -1.0))
  {
  }

  /** `steps` between -1 and 1 (in particular 0) appends nothing. */
  lemma SmallStepsAppendNothing(query: map<string, string>, parse: string -> JsNumber, steps: real)
    requires ParamOr(query, "type", "invoke") == "delta"
    requires FiniteParam(query, "steps", parse) == Some(steps)
    requires -1.0 < steps < 1.0
    ensures InjectedCommands(PlanInjection(query, parse)) == []
  {
  }

  /** Any other request appends exactly one command with the defaulted type and target. */
  lemma SingleInjection(query: map<string, string>, parse: string -> JsNumber)
    requires ParamOr(query, "type", "invoke") != "delta" || FiniteParam(query, "steps", parse).None?
    ensures var cs := InjectedCommands(PlanInjection(query, parse));
            && |cs| == 1
            && cs[0].kind == ParamOr(query, "type", "invoke")
            && cs[0].target == ParamOr(query, "target", "ToggleBeforeAfter")
            && (cs[0].value.Some? <==> FiniteParam(query, "value", parse).Some?)
  {
  }

  /** `type=delta&target=Temp&steps=-3` appends three deltas of -0.01 on Temp. */
  lemma TempStepsExample(parse: string -> JsNumber)
    requires parse("-3") == Finite(-3.0)
    ensures InjectedCommands(PlanInjection(map["type" := "delta", "target" := "Temp", "steps" := "-3"], parse))
            == [Delta("Temp", -0.01), Delta("Temp", -0.01), Delta("Temp", -0.01)]
  {
    var q := map["type" := "delta", "target" := "Temp", "steps" := "-3"];
    assert ParamOr(q, "type", "invoke") == "delta";
    assert ParamOr(q, "target", "ToggleBeforeAfter") == "Temp";
    assert FiniteParam(q, "steps", parse) == Some(-3.0);
    assert TruncAbs(-3.0) == 3;
  }

  /** `type=invoke&target=Reset` appends one invoke of Reset with no value. */
  lemma ResetExample(parse: string -> JsNumber)
    ensures InjectedCommands(PlanInjection(map["type" := "invoke", "target" := "Reset"], parse))
            == [Invoke("Reset")]
  {
    var q := map["type" := "invoke", "target" := "Reset"];
    assert ParamOr(q, "type", "invoke") == "invoke";
    assert ParamOr(q, "target", "ToggleBeforeAfter") == "Reset";
    assert FiniteParam(q, "value", parse) == None;
  }

  /** A bare `/enqueue` toggles before/after. */
  lemma BareEnqueueToggles(parse: string -> JsNumber)
    ensures InjectedCommands(PlanInjection(map[], parse)) == [Invoke("ToggleBeforeAfter")]
  {
  }

  /** An invoke injection with a finite value keeps the value in its command. */
  lemma InvokeMayCarryValue(parse: string -> JsNumber, v: string, x: real)
    requires v != "" && parse(v) == Finite(x)
    ensures InjectedCommands(PlanInjection(map["target" := "Reset", "value" := v], parse))
            == [Command("invoke", "Reset", Some(x))]
  {
    var q := map["target" := "Reset", "value" := v];
    assert ParamOr(q, "type", "invoke") == "invoke";
    assert ParamOr(q, "target", "ToggleBeforeAfter") == "Reset";
    assert FiniteParam(q, "value", parse) == Some(x);
  }

  /** The state of index.js: the queue and the number conversions it relies on. */
  class Server {
    var queue: seq<string>
    /** SENS, fixed at startup. */
    const sens: real
    /** `String(number)`. */
    const render: real -> string
    /** `Number(string)`. */
    const parse: string -> JsNumber

    /** Only literals are queued, a literal is never the empty string, and SENS is never 0. */
    ghost predicate Valid()
      reads this
    {
      NoEmptyItems(queue) && sens != 0.0
    }

    /**
      Startup: an empty queue, and SENS from the sensitivity override (the
      finite number `LR_KNOB_SENSITIVITY` parses to, if any).
    */
    constructor(override: Option<real>, render: real -> string, parse: string -> JsNumber)
      ensures Valid()
      ensures queue == [] && sens == Sensitivity(override) && this.render == render && this.parse == parse
    {
      queue := [];
      sens := Sensitivity(override);
      this.render := render;
      this.parse := parse;
    }

    /** enqueue: serialize the command and append it at the tail. */
    method Enqueue(cmd: Command)
      requires Valid()
      modifies this
      ensures Valid()
      ensures queue == old(queue) + [Literal(cmd, render)]
    {
      LiteralNonEmpty(cmd, render);
      queue := queue + [Literal(cmd, render)];
    }

    /** `/poll`: shift the head off; an empty queue gives the empty signal and stays empty. */
    method Poll() returns (r: PollResult)
      requires Valid()
      modifies this
      ensures Valid()
      ensures (r, queue) == PollStep(old(queue))
      ensures old(queue) == [] ==> r == Empty && queue == []
      ensures old(queue) != [] ==> r == Served(old(queue)[0]) && queue == old(queue)[1..]
    {
      if queue == [] {
        r := Empty;
      } else {
        var item := queue[0];
        queue := queue[1..];
        r := if item != "" then Served(item) else Empty;
      }
    }

    /** The request handler: one route per request, effects on the queue only. */
    method Handle(req: Request) returns (resp: Response)
      requires Valid()
      modifies this
      ensures Valid()
      ensures RouteOf(req) == PollRoute ==>
        resp == PollResponse(PollStep(old(queue)).0) && queue == PollStep(old(queue)).1
      ensures RouteOf(req) == AckRoute || RouteOf(req) == HealthRoute ==>
        resp == Response(200, Text("ok")) && queue == old(queue)
      ensures RouteOf(req) == QueueLengthRoute ==>
        resp == Response(200, Text(NatToDecimal(|old(queue)|))) && queue == old(queue)
      ensures RouteOf(req) == EnqueueRoute && req.query.None? ==>
        resp == Response(400, Text("bad request")) && queue == old(queue)
      ensures RouteOf(req) == EnqueueRoute && req.query.Some? ==>
        var inj := PlanInjection(req.query.value, parse);
        resp == InjectionResponse(inj)
        && queue == old(queue) + Literals(InjectedCommands(inj), render)
      ensures RouteOf(req) == NotFound ==>
        resp == Response(404, Text("not found")) && queue == old(queue)
    {
      match RouteOf(req)
      case PollRoute =>
        var r := Poll();
        resp := PollResponse(r);
      case AckRoute =>
        resp := Response(200, Text("ok"));
      case HealthRoute =>
        resp := Response(200, Text("ok"));
      case QueueLengthRoute =>
        resp := Response(200, Text(NatToDecimal(|queue|)));
      case EnqueueRoute =>
        if req.query.None? {
          resp := Response(400, Text("bad request"));
        } else {
          var inj := PlanInjection(req.query.value, parse);
          match inj
          case Bulk(target, count, step) =>
            var cmd := Delta(target, step);
            for i := 0 to count
              invariant Valid()
              invariant queue == old(queue) + Literals(Repeat(cmd, i), render)
            {
              Enqueue(cmd);
              assert Repeat(cmd, i + 1) == Repeat(cmd, i) + [cmd];
              LiteralsAppend(Repeat(cmd, i), [cmd], render);
            }
            resp := InjectionResponse(inj);
          case Single(cmd) =>
            Enqueue(cmd);
            resp := InjectionResponse(inj);
        }
      case NotFound =>
        resp := Response(404, Text("not found"));
    }
  }
}

=== FILE: settings.dfy ===
/**
  Per-control settings records and the getters the handlers read them
  with. A settings value is a string; a missing key and the empty string
  are both falsy, which is what the `||` fallbacks test.
*/
module Settings {
  import opened JsValues

  type Settings = map<string, string>

  /** The string-valued fields of a settings object; anything else is no settings. */
  function SettingsOf(v: JsValue): (s: Settings)
    ensures forall k :: k in s ==> v.Obj? && k in v.fields && v.fields[k] == Str(s[k])
    ensures v.Obj? ==> forall k :: k in v.fields && v.fields[k].Str? ==> k in s
  {
    if v.Obj? then map k | k in v.fields && v.fields[k].Str? :: v.fields[k].s else map[]
  }

  /** `Object.assign({...base}, over)`: every key of either, the later object winning. */
  function Overlay(base: Settings, over: Settings): (s: Settings)
    ensures s.Keys == base.Keys + over.Keys
    ensures forall k :: k in over ==> s[k] == over[k]
    ensures forall k :: k in base && k !in over ==> s[k] == base[k]
  {
    base + over
  }

  /** `s.key`, with the empty string for a missing key. */
  function Field(s: Settings, key: string): string {
    if key in s then s[key] else ""
  }

  /** `a || b` on strings. */
  function Or(a: string, b: string): (r: string)
    ensures r != "" <==> a != "" || b != ""
    ensures a != "" ==> r == a
    ensures a == "" ==> r == b
  {
    if a != "" then a else b
  }

  /** getContextSettings: `data[context] || {}`. */
  function ContextSettings(data: map<string, Settings>, context: string): (s: Settings)
    ensures context in data ==> s == data[context]
    ensures context !in data ==> s == map[]
  {
    if context in data then data[context] else map[]
  }

  /** getTargetFromSettings: `target`, falling back to `paramId`. */
  function TargetOf(s: Settings): (t: string)
    ensures t != "" <==> Field(s, "target") != "" || Field(s, "paramId") != ""
    ensures Field(s, "target") != "" ==> t == Field(s, "target")
    ensures Field(s, "target") == "" ==> t == Field(s, "paramId")
  {
    Or(Field(s, "target"), Field(s, "paramId"))
  }

  /** getInvokeActionFromSettings: `action`, falling back to `invokeAction`. */
  function InvokeActionOf(s: Settings): (a: string)
    ensures a != "" <==> Field(s, "action") != "" || Field(s, "invokeAction") != ""
    ensures Field(s, "action") != "" ==> a == Field(s, "action")
    ensures Field(s, "action") == "" ==> a == Field(s, "invokeAction")
  {
    Or(Field(s, "action"), Field(s, "invokeAction"))
  }
}

=== FILE: wrappers.dfy ===
/** The optional value used wherever a JavaScript field may be absent. */
module Wrappers {

  datatype Option<+T> = None | Some(value: T) {

    /** The value, or `default` when absent. */
    function GetOr(default: T): T {
      match this
      case Some(v) => v
      case None => default
    }
  }

  /** The zero- or one-element sequence holding the value of `o`. */
  function ToSeq<T>(o: Option<T>): (s: seq<T>)
    ensures |s| <= 1
    ensures |s| == 1 <==> o.Some?
    ensures o.Some? ==> s[0] == o.value
  {
    match o
    case Some(v) => [v]
    case None => []
  }
}
